=== FILE: README.md ===
# coolctl core in Dafny

A model of the logic core of coolctl, a command-line driver for the NZXT
Kraken X liquid coolers (X42, X52, X62, X72), with proofs about it. The model
covers:

- the colour path: hex colour strings become `color.RGBA` values
  (`colorFromHexString`). A list of them becomes a palette
  (`paletteFromColors`). The palette and a lighting mode become LED frames
  ("steps", `generateSteps`). Each step becomes a colour packet with a
  five-byte header (`SetColor`), padded with zeros to 65 bytes (`Write`).
- the device tables: lighting channels, lighting modes, cooling channels and
  animation speeds, with the packet sizes.
- the speed-profile path: the `speed` command checks its arguments and joins
  its tokens into profile text. `parseProfile` reads that text as
  (temperature, duty) points. `normalizeProfile` sorts the points and caps the
  hottest one at `(critical, 100)`. `interpolateProfile` computes a duty for
  every even temperature from 20 to 60. `makeRange` builds that grid.
- the status report: `GetStatus` decodes the liquid temperature, the fan and
  pump speeds and the firmware version from a status packet.

Go's library behaviour that the core relies on is written out in the modules
`Text` and `Arith`:

- `Text`: `strings.Index`, `Contains`, `Split`, `Join` and `Trim`, plus
  `strconv.Atoi` and `%d`.
- `Arith`: truncating integer `/`, and `math.Round` (halves away from zero).

Modules, one per file:

| module | file | contents |
|---|---|---|
| `Wrappers` | wrappers.dfy | `Option` and `Result`. Every `log.Fatal` of the core becomes a `Failure`; a panic becomes either a `Failure` or a precondition, as listed under "Left out". |
| `Errors` | errors.dfy | one error per fatal message of the core |
| `Bits` | bits.dfy | bytes, powers of two, bitwise OR on naturals, shifts, and Go's `byte()` truncation |
| `Text` | text.dfy | the `strings` and `strconv` functions the core calls |
| `Arith` | arith.dfy | Go's `/` on integers; `int(math.Round(n / d))` on exact quotients |
| `Catalog` | catalog.dfy | the tables of driver/kraken.go |
| `Palette` | palette.dfy | `hex.DecodeString`, `colorFromHexString`, `paletteFromColors` |
| `Steps` | steps.dfy | `generateSteps` |
| `Frames` | frames.dfy | the colour frame and the send loop of `SetColor`; the padding of `Write` |
| `Profile` | profile.dfy | `makeRange`, `parseProfile`, `normalizeProfile` |
| `Interpolation` | interpolate.dfy | `interpolateProfile` |
| `Status` | status.dfy | the decoding in `GetStatus` |
| `SpeedCommand` | speedcmd.dfy | the `Args` check and the join loop of cmd/speed.go |
| `Vectors` | vectors.dfy | the parse and normalize examples of driver/util_test.go, from their text |

Where the code and its documentation disagree, the model follows the code:

- `colorFromHexString` accepts any even-length hex string of at least three
  bytes. Bytes after the third are ignored; nothing enforces six digits.
- The interpolated duty never falls where the profile's duties never fall.
  It need not rise strictly: a flat stretch of the profile stays flat.
- `interpolateProfile` carries `lower` and `upper` from one grid temperature
  to the next. When the profile ends below 60, the stale `upper` lies behind
  `lower`, and the line through the two extrapolates beyond every duty of the
  profile (`Interpolation.StaleUpperExample`).
- `upper` is the first point hotter than the grid temperature. Of several
  points at the same temperature, `lower` is the last one.
- `normalizeProfile` appends `(critical, 100)` after a hottest point that is
  hotter than `critical` without full duty. The result is then out of order
  (`Profile.NormalizeHotPointUnsorted`).

## Model

| member | source | states |
|---|---|---|
| Palette.HexDecode | driver/util.go:26-29 | decoding succeeds exactly for an even number of hex digits; the result has half as many bytes, and byte `i` is the value of digit pair `i` |
| Palette.HexDecodeFailure | driver/util.go:26-29 | an odd length is reported only when every character is a hex digit; otherwise the error carries the first character that is not a hex digit, which for ASCII input is the byte Go reports |
| Palette.HexRoundTrip | driver/util.go:26 | decoding a hex encoding (lower or upper case) gives back the bytes |
| Palette.ColorFromHexString | driver/util.go:25-32 | a colour exists exactly for an even run of at least six hex digits; R, G and B are the first three bytes, alpha is 1, and later bytes are ignored; a decode error is passed on with the input; a decodable string too short for three bytes is a distinct failure |
| Palette.ColorRoundTrip | driver/util.go:25-32 | any colour written as six hex digits reads back as itself with alpha 1 |
| Palette.ColorExamples | driver/util_test.go:10-22 | "ff0000" is red with alpha 1, and "foobar" fails at its first non-digit, 'o' |
| Palette.PaletteFromColors | driver/util.go:34-47 | a palette exists exactly when every token is a colour; it keeps the tokens' order and count; otherwise the error is that of the first bad token |
| Palette.PaletteOfThree | driver/util.go:37-43 | three tokens that read as colours give exactly those three colours, in order |
| Palette.PaletteExample | driver/util_test.go:24-34 | "FF0000", "00FF00", "0000FF" give red, green and blue with alpha 1 |
| Palette.PaletteInvalidExample | driver/util_test.go:36-41 | ["foobar"] gives no palette, only the error of "foobar" |
| Steps.Retain | driver/util.go:50-64 | the kept palette is the placeholder when the mode takes no colours or none were given; otherwise it is the given colours cut to the mode's maximum, keeping their order |
| Steps.GenerateSteps | driver/util.go:49-84 | fails exactly when fewer colours than the mode's minimum are given; an ordinary mode gives one uniform nine-LED frame per kept colour; a "super" mode gives the kept palette as one frame, preceded by a one-LED placeholder frame when the mode is ring-only |
| Steps.StepsSpellPalette | driver/util.go:68-75 | for an ordinary mode, the first LEDs of the steps, read in order, are exactly the kept palette |
| Steps.CatalogStepBounds | driver/util.go:57-84 | with any mode of the table there are at most eight steps, and every step has one to nine LEDs |
| Steps.FadingExample | driver/util.go:68-75 | two colours in "fading" give two uniform steps, in order |
| Steps.WaterCoolerExample | driver/util.go:52-64 | "water-cooler" with no colours gives a single step of placeholder LEDs |
| Steps.SuperFixedExample | driver/util.go:79-81 | "super-fixed" turns one to nine colours into one step of exactly those colours |
| Catalog.ColorModesWellFormed | driver/kraken.go:46-76 | every mode has `min <= max <= 9` colours; its direction and modifier use only bits 3-4; only "super" modes take more than eight colours |
| Catalog.ColorChannelsFitLowBits | driver/kraken.go:40-44 | every lighting channel code fits in bits 0-2 |
| Bits.OrDisjointIsSum | driver/kraken.go:225-227 | OR-ing a value shifted past the low bits with a smaller value is their sum |
| Frames.ChannelByteIsSum | driver/kraken.go:225 | byte 2 of a frame is the mode's direction bits plus the channel code, and nothing is lost to `byte()` |
| Frames.SequenceByteLayout | driver/kraken.go:227 | byte 4 is the normal speed 2, plus 32 times the step index, plus the modifier, all modulo 256 |
| Frames.LedBytes | driver/kraken.go:231-236 | three bytes per LED, in R, G, B order, LED after LED |
| Frames.ColorFrame | driver/kraken.go:220-236 | a frame is 5 + 3n bytes for n LEDs; it starts 0x02 0x4c with the direction-channel byte, the mode byte and the sequence byte; the first LED is sent as G, R, B and every later LED as R, G, B |
| Frames.Pad | driver/kraken.go:174-176 | the packet is 65 bytes: the data unchanged, then zeros |
| Frames.ColorSteps | driver/kraken.go:202-217 | an unknown channel, then an unknown mode, then a ring-only mode on a channel other than "ring", then the first bad colour, then too few colours for the mode, each fail with their own error, in that order; it succeeds exactly when every check passes, and then gives the steps of the mode's colour limits |
| Frames.ColorStepsBounds | driver/kraken.go:202-217 | after validation, the channel code fits three bits, the mode is well formed, and the steps fit the sequence field and the LED count |
| Frames.PacketLayout | driver/kraken.go:222-238 | for a table mode, a frame is at most 32 bytes, and its padded packet carries 0x02, 0x4c, direction plus channel, the mode byte, and 2 + 32 * index + modifier, without overlap |
| Frames.WriteFrames | driver/kraken.go:219-239 | one padded packet per step, in step order, each numbered by its step's index |
| Frames.SetColor | driver/kraken.go:201-240 | fails exactly when validation fails, with its error; otherwise it sends at most eight packets, the padded frames of the steps in order, each header carrying the channel, the mode and the step index |
| Profile.Steps | driver/util.go:88-91 | element `i` of the loop's output is `min + i * step` |
| Profile.MakeRange | driver/util.go:86-94 | `(max - min) / step` values, Go's truncating quotient, where value `i` is `min + i * step` |
| Profile.MakeRangeExamples | driver/util_test.go:43-48 | `makeRange(10, 22, 2)` is 10, 12, …, 20; the interpolation grid `makeRange(20, 62, 2)` has 21 values 20, 22, …, 60; a backward range is empty; a negative step counts down |
| Profile.ParseSegments | driver/util.go:99-117 | the segments parse exactly when each does; the points keep the segments' order and count |
| Profile.ParseProfile | driver/util.go:96-120 | text parses exactly when every double-space-separated segment parses, giving one point per segment: point k is what segment k parses to |
| Profile.ParsePoint | driver/util.go:100-116 | a segment fails only as a missing duty, reported with the whole segment, or as an invalid integer |
| Profile.ParsePointTokens | driver/util.go:100-116 | a segment is read from its first two space-separated tokens alone: a bad first token is the error, then a bad second token, otherwise the point of the two, whatever follows the second token |
| Profile.ParsePointPair | driver/util.go:100-116 | two integers with one space between them parse to that (temperature, duty) point |
| Profile.ParsePointSingle | driver/util.go:100-104 | a segment without a space is rejected as a missing duty |
| Profile.ParseSegmentsFirstBad | driver/util.go:99-114 | parsing stops at the first bad segment, with that segment's error |
| Profile.SortByTemp | driver/util.go:123-125 | the sorted profile is ordered by temperature and has as many points |
| Profile.SortPermutes | driver/util.go:123-125 | sorting keeps exactly the points it was given, as a multiset |
| Profile.SortSorted | driver/util.go:123-125 | sorting a sorted profile changes nothing |
| Profile.CapLast | driver/util.go:127-134 | the result ends in a full-duty point at or above `critical`; it is the input unchanged when the input already ends so; otherwise it has at most one point more |
| Profile.CapLastReplaces | driver/util.go:128-133 | a hottest point below `critical` with duty 100, or at `critical` without it, is replaced by `(critical, 100)` |
| Profile.CapLastAppends | driver/util.go:128-133 | a hottest point neither at `critical` nor at duty 100 is kept, and `(critical, 100)` is appended after it |
| Profile.CapLastKeepsPoints | driver/util.go:127-134 | capping a permutation of a profile keeps, besides the final cap, only points of that profile |
| Profile.Normalize | driver/util.go:122-137 | the normalized profile ends in a full-duty point at or above `critical`, and it has as many points as the input or one more |
| Profile.NormalizeCases | driver/util.go:122-137 | after the sort, the profile is returned unchanged when its hottest point is at or above `critical` with duty 100; that point is replaced by `(critical, 100)` when it is below `critical` with duty 100 or at `critical` without it; otherwise `(critical, 100)` is appended |
| Profile.NormalizeKeepsPoints | driver/util.go:122-137 | every point of the normalized profile except the final cap is a point of the input |
| Profile.CapLastSorted | driver/util.go:127-134 | capping a sorted profile that stays at or below `critical` keeps it sorted and ends it exactly at `(critical, 100)` |
| Profile.NormalizeSorted | driver/util.go:122-137 | when no point is hotter than `critical`, the result is sorted and ends exactly at `(critical, 100)` |
| Profile.NormalizeIdempotent | driver/util.go:122-137 | normalizing a sorted normal form again changes nothing |
| Profile.SortSwapFirstTwo | driver/util.go:123-125 | four points whose first two are out of order, the rest in order, sort with just the first two swapped |
| Profile.NormalizeReplacesFullDuty | driver/util_test.go:60 | the first test's shape: a full-duty hottest point below `critical` is replaced by `(critical, 100)` after the sort |
| Profile.NormalizeRaisesCritical | driver/util_test.go:61 | the second test's shape: a hottest point at `critical` is raised to duty 100 |
| Profile.NormalizeKeepsLast | driver/util_test.go:62 | the third test's shape: any other hottest point below `critical` stays, and `(critical, 100)` follows |
| Profile.NormalizeHotPointUnsorted | driver/util.go:128-133 | a point hotter than `critical` without full duty is kept and the cap appended after it, so the result is not sorted |
| Vectors.ParseProfileTest | driver/util_test.go:50-54 | "20 25  35 25  50 55  60 100" parses to (20,25), (35,25), (50,55), (60,100) |
| Vectors.NormalizeTestFullDuty | driver/util_test.go:60 | "35 25  20 25  50 55  50 100" parses and normalizes at 60 to (20,25), (35,25), (50,55), (60,100) |
| Vectors.NormalizeTestCritical | driver/util_test.go:61 | "35 25  20 25  50 55  60 90" parses and normalizes at 60 to (20,25), (35,25), (50,55), (60,100) |
| Vectors.NormalizeTestKeepsLast | driver/util_test.go:62 | "35 25  20 25  50 55  50 90" parses and normalizes at 60 to (20,25), (35,25), (50,55), (50,90), (60,100) |
| Vectors.ParseJoinedText | driver/util.go:96-120 | eight words joined by the `speed` loop parse to their values in pairs |
| Arith.Quot | driver/util.go:87 | Go's integer quotient: the remainder is smaller than the divisor and takes the dividend's sign |
| Arith.QuotExamples | driver/util.go:87 | division truncates toward zero for every combination of signs |
| Arith.RoundDiv | driver/util.go:155 | the rounded quotient is within half a divisor of the exact one, and a tie goes away from zero |
| Arith.RoundDivUnique | driver/util.go:155 | any integer with those two properties is the rounded quotient: the rounding `math.Round` specifies |
| Arith.RoundDivExamples | driver/util.go:155 | 2.5 rounds to 3, -2.5 to -3, 7/3 to 2 and 8/3 to 3 |
| Arith.LineBetween | driver/util.go:155 | a rounded point on the line between two duties lies between them |
| Arith.RoundDivMono | driver/util.go:155 | rounding never reverses the order of two quotients |
| Interpolation.InterpolateFrom | driver/util.go:142-159 | one point per grid temperature, carrying that temperature |
| Interpolation.Interpolate | driver/util.go:139-162 | 21 points, at temperatures 20, 22, …, 60 |
| Interpolation.ScanPicks | driver/util.go:143-150 | for any profile, a scan leaves `lower` at the point carried in or at a scanned point no hotter than the grid temperature, and `upper` at the point carried in or at a scanned point hotter than it |
| Interpolation.DutyAtNearest | driver/util.go:152-156 | at equal temperatures the duty is the lower point's; otherwise it is the integer nearest the exact value of the line at the grid temperature, a tie going away from zero |
| Interpolation.ScanBrackets | driver/util.go:143-150 | the scan for one grid temperature leaves `upper` at the first point hotter than it (or unchanged when there is none), and `lower` at the point before that (or unchanged) |
| Interpolation.DutyAtLower | driver/util.go:152-156 | the line evaluated at the lower point's temperature gives its duty |
| Interpolation.InterpolateFromRef | driver/util.go:142-159 | over a rising grid that the profile reaches, the loop gives the reference duty at every grid temperature, despite brackets carried between temperatures |
| Interpolation.InterpolateMatchesRef | driver/util.go:139-162 | for a profile reaching 60, each result is the reference duty: the first point's duty below the profile, otherwise the rounded line from the last point at or below to the first point above |
| Interpolation.DutyBetween | driver/util.go:155 | between two points of rising temperature, the line stays between their duties |
| Interpolation.DutyAtUpper | driver/util.go:155 | the line meets the upper point exactly |
| Interpolation.InterpolateWithinNeighbours | driver/util.go:139-162 | for a profile reaching 60, every duty lies between the duties of two neighbouring points |
| Interpolation.DutyMono | driver/util.go:155 | along a line of rising duty, the rounded duty does not fall with temperature |
| Interpolation.InterpolateMonotone | driver/util.go:139-162 | for a profile reaching 60 whose duties never fall, the interpolated duties never fall |
| Interpolation.StaleUpperExample | driver/util.go:140-150 | a profile ending at 22 gives duty 40 at 24, above every duty of the profile, because the stale `upper` is used |
| Interpolation.InterpolateKeepsPoints | driver/util.go:143-153 | for a profile reaching 60, a point whose temperature is on the grid, with no hotter point before it and a hotter point (or none) next, gives its own duty at that grid temperature |
| Interpolation.InterpolateBelowFirst | driver/util.go:140-153 | for a profile reaching 60, a grid temperature below the first point gets the first point's duty |
| Interpolation.TestProfileTable | driver/util_test.go:74-77 | the test profile interpolates to 25 up to 34, then 2 more per degree up to 48, then 4.5 per degree, rounded, up to 58, then 100 at 60 |
| Interpolation.TestProfileLiteral | driver/util_test.go:74-77 | the test profile interpolates to the 21 points the test expects |
| Status.Word | driver/kraken.go:188-189 | two bytes read high byte first: `256 * hi + lo` |
| Status.WordRoundTrip | driver/kraken.go:188-190 | a word splits back into the two bytes it was built from |
| Status.DecodeStatus | driver/kraken.go:184-190 | decoding fails exactly for packets too short to hold byte 0xe |
| Status.DecodeStatusFormat | driver/kraken.go:187-190 | the report is `"%d.%d"` of bytes 1 and 2, the big-endian words of bytes 3-4 and 5-6, and `"%d.%d.%d"` of byte 11, the word of bytes 12-13, and byte 14 |
| Status.ReadBackDecode | driver/kraken.go:187-190 | the report loses nothing: reading it back gives every byte it was decoded from |
| Status.DecodeStatusInjective | driver/kraken.go:187-190 | two packets give the same report exactly when they agree on the bytes read; all other bytes are ignored |
| Status.SplitDotted | driver/kraken.go:187-190 | a dotted string splits back into the decimal forms it joined |
| Status.DecodeStatusExample | driver/kraken.go:187-190 | a packet with 25, 4, 600 rpm, 300 rpm and firmware bytes 4, 1, 2, 1 reports "25.4", 600, 300 and "4.258.1" |
| Text.IndexOf | driver/util.go:68 | the index of the leftmost occurrence, or none exactly when there is no occurrence |
| Text.Split | driver/util.go:97 | there is at least one part, and the parts rejoin to the input |
| Text.SplitPartsFree | driver/util.go:97 | no part holds the separator |
| Text.SplitJoin | driver/util.go:97 | splitting undoes joining when no part can be confused with the separator |
| Text.Atoi | driver/util.go:106-114 | an accepted integer is non-empty, has no space and fits 64 bits; a rejected string is reported with itself |
| Text.AtoiItoa | driver/util.go:106-114 | a decimal number within range reads back as itself |
| Text.Trim | cmd/speed.go:40 | the result is the piece of the input between its leading and trailing spaces, and it neither starts nor ends with a space |
| Text.TrimPadded | cmd/speed.go:40 | trimming spaces off words followed by spaces gives the words back |
| SpeedCommand.CheckArgs | cmd/speed.go:20-30 | arguments are accepted exactly when there are at least two; no channel and no profile are distinct errors |
| SpeedCommand.AccSegments | cmd/speed.go:33-38 | from an even index on, the loop appends the token pairs joined by double spaces, then one or two trailing spaces |
| SpeedCommand.JoinProfileSegments | cmd/speed.go:31-40 | for tokens without spaces, the loop's text is the pairs, one space inside each and two between, with nothing at either end |
| SpeedCommand.SplitJoinedProfile | cmd/speed.go:31-40 | splitting the joined text of integer tokens on double spaces gives back the pairs |
| SpeedCommand.ParseJoinedPairs | cmd/speed.go:31-40 | an even number of integer tokens, once joined, parses to points made of consecutive tokens |
| SpeedCommand.ParseJoinedOdd | cmd/speed.go:31-40 | an odd number of integer tokens, once joined, fails on the last token, which has no duty |
| SpeedCommand.ParseReadings | cmd/speed.go:31-40 | tokens that read as given integers, an even number of them, parse to those integers paired up |
| SpeedCommand.PairUp | cmd/speed.go:33-38 | the values taken two at a time, in order, as (temperature, duty) points |
| SpeedCommand.JoinTokens | cmd/speed.go:31-40 | the loop followed by `strings.Trim` produces the joined profile text, which is the pairs joined by double spaces |
| SpeedCommand.Speed | cmd/speed.go:20-40 | the command fails exactly without a channel and a profile token; otherwise it passes on the channel and the joined text of the remaining tokens |
| SpeedCommand.SpeedExample | cmd/speed.go:26 | the usage text's example tokens read as the points (20,25), (35,25), (50,55), (60,100) |

## Left out

- USB I/O: device discovery, `Connect`, `Read`, the endpoint write and the
  command-line flags depend on the hardware. `SetColor` returns its packets
  instead of writing them.
- Printing and logging: `GetStatus` returns the report instead of printing it.
  The "too many colours" warnings of `generateSteps` only print.
- The CLI wiring of cmd/root.go, cmd/color.go and cmd/status.go, and main.go.
  These only hand arguments over.
- `SetSpeed`, `SupportsCoolingProfiles` and `criticalTemp` are not part of
  this model: their definitions are not in the repository text. The critical
  temperature is a parameter of `Profile.Normalize`. The tests' expected
  profiles end at 60, so the test vectors use 60.
- The second copy of `generateSteps` (driver/kraken.go:242-277) is the same
  function as the one in driver/util.go; it is modelled once.
- Go's `float64` arithmetic in `interpolateProfile` is computed on exact
  rationals. A value that lands a rounding error away from a half may round
  differently in Go.
- `sort.Slice` is not stable. The model uses a stable insertion sort. Since
  Go 1.19, `sort.Slice` sorts fewer than 13 points by insertion sort, which
  gives the same order. Earlier Go versions, and longer profiles, may order
  points of equal temperature differently. Only the relative order of such
  ties can differ; the multiset and the temperature order are the same.
- `normalizeProfile` works in place: `sort.Slice` reorders the caller's slice,
  and `p[:len(p)-1]` followed by `append` writes the cap into the caller's
  backing array. The model returns a new profile and leaves its argument
  alone, so a caller that reads its own slice after the call would see a
  difference. No caller is part of this model.
- `strconv.Atoi` reports syntax and range errors separately; both abort the
  driver the same way, and the model has one `InvalidInteger` error for both.
- Text.Atoi: its contract does not spell out the decimal value of every
  accepted string. `Text.AtoiDigits` and `Text.AtoiItoa` pin it down for
  unsigned digits.
- Go's 16-bit `RGBA()` expansion of a colour: `byte()` of each expanded
  channel is the 8-bit channel again, so colours stay 8-bit triples.
- Every `log.Fatal` is a `Failure` value rather than a process exit. A panic
  is either a `Failure` value or a precondition that rules its input out; the
  lines below name each one.
- Profile.Normalize: requires a non-empty profile, where Go panics on
  `p[len(p)-1]`. `parseProfile` never returns an empty profile: a successful
  `Profile.ParseProfile` has one point per segment and at least one segment.
- Frames.ColorFrame: requires a step of at least one LED, where Go panics on
  `step[0]`. `Steps.CatalogStepBounds` shows that every step `generateSteps`
  builds for a table mode has one to nine LEDs.
- Frames.WriteFrames: requires at most eight steps of one to nine LEDs, a
  channel code below 8 and a table-shaped mode, so that `byte()` of the packet
  fields loses nothing. Go would wrap a larger sequence index; no table mode
  produces one.
- Profile.MakeRange: requires a non-zero step and a non-negative count, where
  Go panics (division by zero, `make` with a negative length).
- Frames.Pad: requires at most 65 bytes of data, where Go's `make` panics.
  Frames of the table's modes never exceed 32 bytes.
- Status.DecodeStatus: a packet shorter than 15 bytes is a `ShortPacket`
  failure. Go's `Read` always hands over 64 bytes, so the case cannot arise
  there.
- Palette.HexDecode: decodes a string of characters, not the UTF-8 bytes Go's
  `hex.DecodeString` sees. The strings accepted are the same, because every
  hex digit is ASCII.
- Palette.HexDecodeFailure: for a non-ASCII character the error carries the
  character, where Go's `InvalidByteError` carries the first byte of its UTF-8
  encoding. For "é0", Go reports 0xC3 and the model reports 'é'.
- Palette.ColorFromHexString: a decodable string of fewer than three bytes is
  a `ShortColor` failure. Go indexes `b[2]` and panics.
- Frames.ColorSteps: driver/kraken.go:217 passes the two results of
  `paletteFromColors` as one argument, which Go does not accept. The model
  reads it as evidently meant: a palette error fails the command.
- Interpolation.Interpolate: requires a non-empty profile, because Go reads
  `p[0]`. The properties are proved for profiles that reach 60. Every profile
  normalized with a critical temperature of 60 or more does.
- Animation speeds other than "normal": `SetColor` always sends "normal". The
  table is modelled, but no operation reads the other entries.

=== FILE: arith.dfy ===
/** Integer arithmetic as the driver's Go code performs it: `/` on `int`
    truncates toward zero, and `int(math.Round(x))` takes the nearest integer
    with halves rounded away from zero. Dafny's own `/` is Euclidean, so both
    are written out here. */
module Arith {

  function Abs(x: int): nat {
    if x < 0 then -x else x
  }

  /** Go's `a / b` on integers: the quotient truncated toward zero. The
      remainder is smaller than the divisor and takes the sign of `a`. */
  function Quot(a: int, b: int): (q: int)
    requires b != 0
    ensures Abs(a - q * b) < Abs(b)
    ensures a - q * b == 0 || (a - q * b > 0 <==> a > 0)
  {
    if a >= 0 && b > 0 then a / b
    else if a >= 0 then -(a / -b)
    else if b > 0 then -((-a) / b)
    else (-a) / (-b)
  }

  lemma QuotExamples()
    ensures Quot(7, 2) == 3 && Quot(-7, 2) == -3 && Quot(7, -2) == -3 && Quot(-7, -2) == 3
    ensures Quot(-1, 2) == 0
  {
  }

  /** `n / d` rounded to the nearest integer for `d > 0` and `n >= 0`, halves up. */
  function RoundPos(n: nat, d: int): (r: int)
    requires d > 0
    ensures r >= 0
    ensures -d < 2 * (r * d - n) <= d
  {
    var q := (2 * n + d) / (2 * d);
    assert 2 * n + d == q * (2 * d) + (2 * n + d) % (2 * d);
    q
  }

  /** `n / d` rounded for `d > 0`, halves away from zero. */
  function RoundPosDiv(n: int, d: int): (r: int)
    requires d > 0
    ensures 2 * Abs(r * d - n) <= d
    ensures 2 * Abs(r * d - n) == d ==> Abs(r * d) > Abs(n)
  {
    if n >= 0 then RoundPos(n, d)
    else
      var q := RoundPos(-n, d);
      assert (-q) * d == -(q * d);
      -q
  }

  /** `int(math.Round(n / d))` on the exact quotient: the nearest integer, a
      tie going away from zero. */
  function RoundDiv(n: int, d: int): (r: int)
    requires d != 0
    ensures 2 * Abs(r * d - n) <= Abs(d)
    ensures 2 * Abs(r * d - n) == Abs(d) ==> Abs(r * d) > Abs(n)
  {
    if d > 0 then RoundPosDiv(n, d)
    else
      var r := RoundPosDiv(-n, -d);
      assert r * -d == -(r * d);
      r
  }

  /** A non-zero multiple of `d > 0` is at least `d` away from zero. */
  lemma MultipleGap(r: int, d: int)
    requires d > 0
    ensures r == 0 || Abs(r * d) >= d
  {
    if r >= 1 {
      MulMono(r, d);
    } else if r <= -1 {
      MulMono(-r, d);
      assert (-r) * d == -(r * d);
    }
  }

  lemma RoundPosDivUnique(n: int, d: int, r: int)
    requires d > 0
    requires 2 * Abs(r * d - n) <= d
    requires 2 * Abs(r * d - n) == d ==> Abs(r * d) > Abs(n)
    ensures r == RoundPosDiv(n, d)
  {
    var s := RoundPosDiv(n, d);
    MultiplesApart(r, s, d);
    MultipleGap(r, d);
    MultipleGap(s, d);
    NearestMultiple(n, d, r * d, s * d);
  }

  /** Distinct multiples of `d > 0` are at least `d` apart. */
  lemma MultiplesApart(r: int, s: int, d: int)
    requires d > 0
    ensures r == s || Abs(r * d - s * d) >= d
  {
    assert (r - s) * d == r * d - s * d;
    MultipleGap(r - s, d);
  }

  /** Of the multiples of `d` (any two of which are zero or at least `d` apart),
      only one is within half of `d` from `n` with a tie going away from zero. */
  lemma NearestMultiple(n: int, d: int, a: int, b: int)
    requires d > 0
    requires a == 0 || Abs(a) >= d
    requires b == 0 || Abs(b) >= d
    requires a - b == 0 || Abs(a - b) >= d
    requires 2 * Abs(a - n) <= d && (2 * Abs(a - n) == d ==> Abs(a) > Abs(n))
    requires 2 * Abs(b - n) <= d && (2 * Abs(b - n) == d ==> Abs(b) > Abs(n))
    ensures a == b
  {
  }

  /** At most one integer lies within half a divisor of `n / d` and breaks a
      tie away from zero: `RoundDiv` is the rounding `math.Round` specifies. */
  lemma RoundDivUnique(n: int, d: int, r: int)
    requires d != 0
    requires 2 * Abs(r * d - n) <= Abs(d)
    requires 2 * Abs(r * d - n) == Abs(d) ==> Abs(r * d) > Abs(n)
    ensures r == RoundDiv(n, d)
  {
    if d > 0 {
      RoundPosDivUnique(n, d, r);
    } else {
      assert r * -d == -(r * d);
      RoundPosDivUnique(-n, -d, r);
    }
  }

  /** A rounded quotient of a value between `a * d` and `b * d` lies between `a`
      and `b`. */
  lemma RoundDivBetween(n: int, d: int, a: int, b: int)
    requires d > 0 && a * d <= n <= b * d
    ensures a <= RoundDiv(n, d) <= b
  {
    var r := RoundDiv(n, d);
    MulOrder(r, a, d);
    MulOrder(b, r, d);
  }

  /** `x` lies between `a` and `b`, in either order. */
  predicate Between(x: int, a: int, b: int) {
    (a <= x <= b) || (b <= x <= a)
  }

  /** The point `s / span` of the way from `a` to `b`, rounded, lies between
      them. */
  lemma LineBetween(a: int, b: int, span: int, s: int)
    requires 0 <= s <= span && span > 0
    ensures Between(RoundDiv(a * span + s * (b - a), span), a, b)
  {
    var n := a * span + s * (b - a);
    if a <= b {
      MulBetween(s, span, b - a);
      assert b * span == a * span + span * (b - a);
      RoundDivBetween(n, span, a, b);
    } else {
      MulBetween(s, span, a - b);
      assert s * (b - a) == -(s * (a - b));
      assert b * span == a * span - span * (a - b);
      RoundDivBetween(n, span, b, a);
    }
  }

  /** For `0 <= s <= span` and `c >= 0`, `s * c` lies between 0 and `span * c`. */
  lemma MulBetween(s: int, span: int, c: int)
    requires 0 <= s <= span && c >= 0
    ensures 0 <= s * c <= span * c
  {
    assert span * c - s * c == (span - s) * c;
  }

  /** Rounding a quotient by `d > 0` never reverses the order of numerators. */
  lemma RoundDivMono(n1: int, n2: int, d: int)
    requires d > 0 && n1 <= n2
    ensures RoundDiv(n1, d) <= RoundDiv(n2, d)
  {
    var r1, r2 := RoundDiv(n1, d), RoundDiv(n2, d);
    MulOrder(r2, r1, d);
    if n1 == n2 {
      RoundDivUnique(n1, d, r2);
    }
  }

  /** Multiplying by `c >= 0` keeps the order. */
  lemma MulLeMono(x: int, y: int, c: int)
    requires x <= y && c >= 0
    ensures x * c <= y * c
  {
    assert y * c - x * c == (y - x) * c;
  }

  /** Multiplying by `d > 0` keeps integers at least `d` apart. */
  lemma MulOrder(x: int, y: int, d: int)
    requires d > 0
    ensures x < y ==> x * d + d <= y * d
  {
    if x < y {
      MulMono(y - x, d);
      assert (y - x) * d == y * d - x * d;
    }
  }

  lemma {:induction false} MulMono(k: int, d: int)
    requires k >= 1 && d > 0
    ensures k * d >= d
    decreases k
  {
    if k > 1 {
      MulMono(k - 1, d);
      assert k * d == (k - 1) * d + d;
    }
  }

  /** An exact quotient needs no rounding. */
  lemma RoundDivExact(q: int, d: int)
    requires d != 0
    ensures RoundDiv(q * d, d) == q
  {
    assert q * d - q * d == 0;
    RoundDivUnique(q * d, d, q);
  }

  lemma RoundDivExamples()
    ensures RoundDiv(5, 2) == 3 && RoundDiv(-5, 2) == -3 && RoundDiv(5, -2) == -3
    ensures RoundDiv(7, 3) == 2 && RoundDiv(-7, 3) == -2 && RoundDiv(8, 3) == 3
  {
  }
}

=== FILE: bits.dfy ===
/** Bytes and the bit operations the driver's frames are built from.
    Go computes `a | b` and `x << n` on machine integers and truncates with
    `byte(...)`; here `Or` is bitwise OR on unbounded naturals and `ToByte` is the
    truncation, so every packing step of the original is written out. */
module Bits {

  type byte = b: int | 0 <= b < 256

  function Pow2(k: nat): (r: nat)
    ensures r >= 1
  {
    if k == 0 then 1 else 2 * Pow2(k - 1)
  }

  /** Go's `byte(x)` for a non-negative `x`: keep the low eight bits. */
  function ToByte(x: nat): (r: byte)
    ensures x < 256 ==> r == x
    ensures (x - r) % 256 == 0
  {
    x % 256
  }

  /** Lowest bit of `x`. */
  function Bit(x: nat): nat {
    x % 2
  }

  /** Bitwise OR of two naturals, bit by bit from the least significant end. */
  function Or(a: nat, b: nat): nat
    decreases a + b
  {
    if a == 0 && b == 0 then 0
    else 2 * Or(a / 2, b / 2) + (if Bit(a) == 1 || Bit(b) == 1 then 1 else 0)
  }

  /** Go's `x << n`, without the machine-width truncation (callers apply `ToByte`). */
  function Shl(x: nat, n: nat): nat {
    x * Pow2(n)
  }

  lemma {:induction false} OrZero(a: nat)
    ensures Or(a, 0) == a && Or(0, a) == a
    decreases a
  {
    if a != 0 {
      OrZero(a / 2);
    }
  }

  lemma {:induction false} OrCommutes(a: nat, b: nat)
    ensures Or(a, b) == Or(b, a)
    decreases a + b
  {
    if a != 0 || b != 0 {
      OrCommutes(a / 2, b / 2);
    }
  }

  /** The two halves of an OR: its low bit and the OR of the shifted operands. */
  lemma OrHalves(a: nat, b: nat)
    ensures Or(a, b) / 2 == Or(a / 2, b / 2)
    ensures Bit(Or(a, b)) == (if Bit(a) == 1 || Bit(b) == 1 then 1 else 0)
  {
    if a == 0 && b == 0 {
      OrZero(0);
    }
  }

  lemma {:induction false} OrAssociates(a: nat, b: nat, c: nat)
    ensures Or(Or(a, b), c) == Or(a, Or(b, c))
    decreases a + b + c
  {
    if a == 0 && b == 0 {
      OrZero(c);
    } else if b == 0 && c == 0 {
      OrZero(a);
      OrZero(Or(a, b));
    } else {
      OrHalves(a, b);
      OrHalves(b, c);
      OrAssociates(a / 2, b / 2, c / 2);
      calc {
        Or(Or(a, b), c);
        2 * Or(Or(a, b) / 2, c / 2) + (if Bit(Or(a, b)) == 1 || Bit(c) == 1 then 1 else 0);
        2 * Or(Or(a / 2, b / 2), c / 2) + (if Bit(a) == 1 || Bit(b) == 1 || Bit(c) == 1 then 1 else 0);
        2 * Or(a / 2, Or(b / 2, c / 2)) + (if Bit(a) == 1 || Bit(b) == 1 || Bit(c) == 1 then 1 else 0);
        2 * Or(a / 2, Or(b, c) / 2) + (if Bit(a) == 1 || Bit(Or(b, c)) == 1 then 1 else 0);
        Or(a, Or(b, c));
      }
    }
  }

  /** When every set bit of the first operand lies at position `k` or above and
      every set bit of `b` below it, OR is addition: the fields of a packed byte do
      not interfere. */
  lemma {:induction false} OrDisjointIsSum(q: nat, b: nat, k: nat)
    requires b < Pow2(k)
    ensures Or(q * Pow2(k), b) == q * Pow2(k) + b
    decreases k
  {
    var a := q * Pow2(k);
    if k == 0 {
      OrZero(a);
    } else if a == 0 && b == 0 {
    } else {
      assert a == 2 * (q * Pow2(k - 1));
      OrDisjointIsSum(q, b / 2, k - 1);
    }
  }
}

=== FILE: catalog.dfy ===
/** The device tables of driver/kraken.go: lighting channels, lighting modes,
    cooling channels, animation speeds and the packet sizes. */
module Catalog {
  import opened Bits
  import opened Text

  /** One row of `colorModes`: the mode byte (byte 3 of a colour frame), the
      direction bits (or-ed into byte 2), the step-count modifier (or-ed into
      byte 4), the minimum and maximum number of colours, and whether the mode
      exists only on the ring (Go writes that flag as the integer 1). */
  datatype ColorMode = ColorMode(
    modeByte: byte,
    reverse: byte,
    modifier: byte,
    minColors: nat,
    maxColors: nat,
    ringOnly: bool)

  const TotalLEDs: nat := 9
  const ReadLength: nat := 64
  const WriteLength: nat := 65

  const ColorChannels: map<string, nat> := map["sync" := 0x0, "logo" := 0x1, "ring" := 0x2]

  const ColorModes: map<string, ColorMode> := map[
    "off"                          := ColorMode(0x00, 0x00, 0x00, 0, 0, false),
    "fixed"                        := ColorMode(0x00, 0x00, 0x00, 1, 1, false),
    "super-fixed"                  := ColorMode(0x00, 0x00, 0x00, 1, 9, false),
    "fading"                       := ColorMode(0x01, 0x00, 0x00, 2, 8, false),
    "spectrum-wave"                := ColorMode(0x02, 0x00, 0x00, 0, 0, false),
    "backwards-spectrum-wave"      := ColorMode(0x02, 0x10, 0x00, 0, 0, false),
    "marquee-3"                    := ColorMode(0x03, 0x00, 0x00, 1, 1, true),
    "marquee-4"                    := ColorMode(0x03, 0x00, 0x08, 1, 1, true),
    "marquee-5"                    := ColorMode(0x03, 0x00, 0x10, 1, 1, true),
    "marquee-6"                    := ColorMode(0x03, 0x00, 0x18, 1, 1, true),
    "backwards-marquee-3"          := ColorMode(0x03, 0x10, 0x00, 1, 1, true),
    "backwards-marquee-4"          := ColorMode(0x03, 0x10, 0x08, 1, 1, true),
    "backwards-marquee-5"          := ColorMode(0x03, 0x10, 0x10, 1, 1, true),
    "backwards-marquee-6"          := ColorMode(0x03, 0x10, 0x18, 1, 1, true),
    "covering-marquee"             := ColorMode(0x04, 0x00, 0x00, 1, 8, true),
    "covering-backwards-marquee"   := ColorMode(0x04, 0x10, 0x00, 1, 8, true),
    "alternating"                  := ColorMode(0x05, 0x00, 0x00, 2, 2, true),
    "moving-alternating"           := ColorMode(0x05, 0x08, 0x00, 2, 2, true),
    "backwards-moving-alternating" := ColorMode(0x05, 0x18, 0x00, 2, 2, true),
    "breathing"                    := ColorMode(0x06, 0x00, 0x00, 1, 8, false),
    "super-breathing"              := ColorMode(0x06, 0x00, 0x00, 1, 9, false),
    "pulse"                        := ColorMode(0x07, 0x00, 0x00, 1, 8, false),
    "tai-chi"                      := ColorMode(0x08, 0x00, 0x00, 2, 2, true),
    "water-cooler"                 := ColorMode(0x09, 0x00, 0x00, 0, 0, true),
    "loading"                      := ColorMode(0x0a, 0x00, 0x00, 1, 1, true),
    "wings"                        := ColorMode(0x0c, 0x00, 0x00, 1, 1, true),
    "super-wave"                   := ColorMode(0x0d, 0x00, 0x00, 1, 8, true),
    "backwards-super-wave"         := ColorMode(0x0d, 0x10, 0x00, 1, 8, true)
  ]

  /** Base address of each cooling channel. The duty ranges (25-100 for the fan,
      50-100 for the pump) appear in the original only as comments. */
  const SpeedChannels: map<string, nat> := map["fan" := 0x80, "pump" := 0xc0]

  const AnimationSpeeds: map<string, nat> := map[
    "slowest" := 0x0, "slower" := 0x1, "normal" := 0x2, "faster" := 0x3, "fastest" := 0x4]

  /** A value made only of bits 3 and 4: 0x00, 0x08, 0x10 or 0x18. */
  predicate InBits3To4(x: nat) {
    x == 0x00 || x == 0x08 || x == 0x10 || x == 0x18
  }

  /** The facts about the tables that frame assembly relies on. */
  predicate WellFormedMode(m: ColorMode) {
    && m.minColors <= m.maxColors <= TotalLEDs
    && InBits3To4(m.reverse)
    && InBits3To4(m.modifier)
  }

  lemma ColorModesWellFormed(name: string)
    requires name in ColorModes
    ensures WellFormedMode(ColorModes[name])
    ensures ColorModes[name].maxColors <= 8 || Contains(name, "super")
  {
    assert Contains("super-fixed", "super") by {
      assert "super-fixed"[0..5] == "super";
      assert OccursAt("super-fixed", "super", 0);
    }
    assert Contains("super-breathing", "super") by {
      assert "super-breathing"[0..5] == "super";
      assert OccursAt("super-breathing", "super", 0);
    }
  }

  lemma ColorChannelsFitLowBits(name: string)
    requires name in ColorChannels
    ensures ColorChannels[name] < 8
  {
  }
}

=== FILE: errors.dfy ===
/** The ways the driver's core can refuse its input. In the original program most
    of these end the process (`log.Fatal`) or panic; here they are values. */
module Errors {

  /** Why `hex.DecodeString` rejects a string. */
  datatype HexError =
    | InvalidByte(c: char)   // first character that is not a hexadecimal digit
    | OddLength              // all digits valid, but an odd number of them

  datatype Error =
    | MalformedColor(token: string, cause: HexError)
    | ShortColor(token: string)                // decodes, but to fewer than three bytes
    | UnknownChannel(channel: string)
    | UnknownMode(mode: string)
    | UnsupportedChannel(mode: string, channel: string)
    | InsufficientColors(mode: string, required: nat)
    | InvalidProfileSyntax(segment: string)    // a profile segment with fewer than two tokens
    | InvalidInteger(token: string)            // strconv.Atoi: bad syntax or out of range
    | ShortPacket(length: nat)
    | MissingSpeedChannel
    | MissingSpeedProfile
}

=== FILE: frames.dfy ===
/** Outbound packets of driver/kraken.go: the colour frame built in `SetColor` and
    the zero padding applied by `Write`. */
module Frames {
  import opened Wrappers
  import opened Errors
  import opened Bits
  import opened Palette
  import opened Catalog
  import opened Steps

  /** `animationSpeeds["normal"]`, the speed `SetColor` always sends. */
  const NormalSpeed: nat := AnimationSpeeds["normal"]

  /** Byte 2: the direction bits of the mode or-ed with the channel code. The two
      occupy different bits, so the byte is their sum. */
  lemma ChannelByteIsSum(reverse: nat, channel: nat)
    ensures InBits3To4(reverse) && channel < 8 ==> ToByte(Or(reverse, channel)) == reverse + channel
  {
    if InBits3To4(reverse) && channel < 8 {
      var q := reverse / 8;
      assert q * 8 == reverse;
      assert Pow2(3) == 8;
      OrDisjointIsSum(q, channel, 3);
      assert Or(reverse, channel) == reverse + channel < 256;
    }
  }

  /** Byte 4: normal speed, the step index shifted to bits 5-7, and the mode's
      modifier. The three fields do not overlap, so before Go's `byte()`
      truncation the value is their sum; the truncation keeps it whole exactly
      when the index is below 8. */
  lemma SequenceByteLayout(index: nat, modifier: nat)
    ensures InBits3To4(modifier) ==>
      ToByte(Or(Or(NormalSpeed, Shl(index, 5)), modifier)) == (2 + 32 * index + modifier) % 256
  {
    if !InBits3To4(modifier) {
      return;
    }
    assert NormalSpeed == 2;
    assert Pow2(3) == 8;
    assert Pow2(5) == 32;
    var a, q := Shl(index, 5), modifier / 8;
    assert q * 8 == modifier;
    OrCommutes(2, a);
    OrAssociates(a, 2, modifier);
    OrCommutes(2, modifier);
    OrDisjointIsSum(q, 2, 3);
    assert Or(2, modifier) == modifier + 2;
    OrDisjointIsSum(index, modifier + 2, 5);
    assert Or(Or(2, a), modifier) == a + modifier + 2;
  }

  /** R, G, B of each LED in turn. */
  function LedBytes(leds: seq<Rgba>): (bs: seq<byte>)
    ensures |bs| == 3 * |leds|
    ensures forall i :: 0 <= i < |leds| ==>
      bs[3 * i] == leds[i].r && bs[3 * i + 1] == leds[i].g && bs[3 * i + 2] == leds[i].b
    decreases |leds|
  {
    if |leds| == 0 then []
    else
      var rest := LedBytes(leds[1..]);
      assert forall i :: 1 <= i < |leds| ==> leds[i] == leds[1..][i - 1];
      [leds[0].r, leds[0].g, leds[0].b] + rest
  }

  /** The colour frame for step number `index`. The first LED goes out as G, R, B
      and every later LED as R, G, B, as the original writes them. */
  function ColorFrame(channel: nat, mode: ColorMode, index: nat, step: seq<Rgba>): (f: seq<byte>)
    requires |step| >= 1
    ensures |f| == 5 + 3 * |step|
    ensures f[0] == 0x02 && f[1] == 0x4c && f[3] == mode.modeByte
    ensures channel < 8 && InBits3To4(mode.reverse) ==> f[2] == mode.reverse + channel
    ensures InBits3To4(mode.modifier) ==> f[4] == (2 + 32 * index + mode.modifier) % 256
    ensures f[5] == step[0].g && f[6] == step[0].r && f[7] == step[0].b
    ensures forall i :: 1 <= i < |step| ==>
      f[5 + 3 * i] == step[i].r && f[6 + 3 * i] == step[i].g && f[7 + 3 * i] == step[i].b
  {
    ChannelByteIsSum(mode.reverse, channel);
    SequenceByteLayout(index, mode.modifier);
    var header := [
      0x02,
      0x4c,
      ToByte(Or(mode.reverse, channel)),
      ToByte(mode.modeByte),
      ToByte(Or(Or(NormalSpeed, Shl(index, 5)), mode.modifier)),
      step[0].g, step[0].r, step[0].b];
    var leds := LedBytes(step[1..]);
    assert forall i :: 1 <= i < |step| ==> step[i] == step[1..][i - 1];
    assert forall i :: 1 <= i < |step| ==> 5 + 3 * i == 8 + 3 * (i - 1);
    header + leds
  }

  /** `Write`: the data, then zeros up to the 65-byte packet. Go sizes the padding
      `65 - len(data)`, which panics for longer data, so callers must stay within
      the packet. */
  function Pad(data: seq<byte>): (packet: seq<byte>)
    requires |data| <= WriteLength
    ensures |packet| == WriteLength
    ensures packet[..|data|] == data
    ensures forall i :: |data| <= i < WriteLength ==> packet[i] == 0
  {
    data + seq(WriteLength - |data|, _ => 0)
  }

  /** Everything `SetColor` checks before it writes: the channel, the mode, the
      ring-only restriction, the colours and their count, in the original's
      order. */
  function ColorSteps(channel: string, mode: string, colors: seq<string>): (r: Result<seq<seq<Rgba>>, Error>)
    ensures channel !in ColorChannels ==> r == Failure(UnknownChannel(channel))
    ensures channel in ColorChannels && mode !in ColorModes ==> r == Failure(UnknownMode(mode))
    ensures channel in ColorChannels && mode in ColorModes && ColorModes[mode].ringOnly && channel != "ring"
      ==> r == Failure(UnsupportedChannel(mode, channel))
    ensures channel in ColorChannels && mode in ColorModes && (ColorModes[mode].ringOnly ==> channel == "ring")
      && PaletteFromColors(colors).Failure?
      ==> r == Failure(PaletteFromColors(colors).error)
    ensures channel in ColorChannels && mode in ColorModes && (ColorModes[mode].ringOnly ==> channel == "ring")
      && PaletteFromColors(colors).Success? && |colors| < ColorModes[mode].minColors
      ==> r == Failure(InsufficientColors(mode, ColorModes[mode].minColors))
    ensures r.Success? <==>
      && channel in ColorChannels && mode in ColorModes
      && (ColorModes[mode].ringOnly ==> channel == "ring")
      && PaletteFromColors(colors).Success?
      && |colors| >= ColorModes[mode].minColors
    ensures r.Success? ==> var m := ColorModes[mode];
      r == GenerateSteps(PaletteFromColors(colors).value, m.minColors, m.maxColors, mode, m.ringOnly)
  {
    if channel !in ColorChannels then Failure(UnknownChannel(channel))
    else if mode !in ColorModes then Failure(UnknownMode(mode))
    else
      var m := ColorModes[mode];
      if m.ringOnly && channel != "ring" then Failure(UnsupportedChannel(mode, channel))
      else
        var palette :- PaletteFromColors(colors);
        GenerateSteps(palette, m.minColors, m.maxColors, mode, m.ringOnly)
  }

  /** What a successful validation guarantees about the steps and the table
      entries they are sent with. */
  lemma ColorStepsBounds(channel: string, mode: string, colors: seq<string>)
    requires ColorSteps(channel, mode, colors).Success?
    ensures channel in ColorChannels && ColorChannels[channel] < 8
    ensures mode in ColorModes && WellFormedMode(ColorModes[mode])
    ensures var steps := ColorSteps(channel, mode, colors).value;
      |steps| <= 8 && forall j :: 0 <= j < |steps| ==> 1 <= |steps[j]| <= TotalLEDs
  {
    CatalogStepBounds(mode, PaletteFromColors(colors).value);
    ColorModesWellFormed(mode);
    ColorChannelsFitLowBits(channel);
  }

  /** A 65-byte colour packet whose header carries the channel code, the mode
      and the step index side by side. */
  predicate PacketHeader(p: seq<byte>, code: nat, m: ColorMode, index: nat) {
    && |p| == WriteLength
    && p[0] == 0x02 && p[1] == 0x4c
    && p[2] == m.reverse + code
    && p[3] == m.modeByte
    && p[4] == 2 + 32 * index + m.modifier
  }

  /** The packet for a step of a catalog mode: a frame of at most 32 bytes whose
      header carries the fields side by side, padded to 65 bytes. */
  lemma PacketLayout(code: nat, m: ColorMode, index: nat, step: seq<Rgba>)
    requires code < 8 && WellFormedMode(m) && index < 8 && 1 <= |step| <= TotalLEDs
    ensures |ColorFrame(code, m, index, step)| <= 32
    ensures PacketHeader(Pad(ColorFrame(code, m, index, step)), code, m, index)
  {
    var f := ColorFrame(code, m, index, step);
    var p := Pad(f);
    assert p[..5] == f[..5];
  }

  /** One padded frame per step, in step order, each numbered by its step's
      index and carrying its header fields. */
  predicate FramesFor(packets: seq<seq<byte>>, code: nat, m: ColorMode, steps: seq<seq<Rgba>>) {
    && |packets| == |steps|
    && forall j :: 0 <= j < |steps| ==>
         && 1 <= |steps[j]| <= TotalLEDs
         && packets[j] == Pad(ColorFrame(code, m, j, steps[j]))
         && PacketHeader(packets[j], code, m, j)
  }

  /** The loop of `SetColor`: one padded frame per step, in step order, with the
      step's index as its sequence number. */
  method WriteFrames(code: nat, m: ColorMode, steps: seq<seq<Rgba>>) returns (packets: seq<seq<byte>>)
    requires code < 8 && WellFormedMode(m) && |steps| <= 8
    requires forall j :: 0 <= j < |steps| ==> 1 <= |steps[j]| <= TotalLEDs
    ensures |packets| == |steps|
    ensures forall j :: 0 <= j < |steps| ==> packets[j] == Pad(ColorFrame(code, m, j, steps[j]))
    ensures forall j :: 0 <= j < |steps| ==> PacketHeader(packets[j], code, m, j)
  {
    packets := [];
    var i := 0;
    while i < |steps|
      invariant 0 <= i <= |steps|
      invariant |packets| == i
      invariant forall j :: 0 <= j < i ==> packets[j] == Pad(ColorFrame(code, m, j, steps[j]))
    {
      PacketLayout(code, m, i, steps[i]);
      packets := packets + [Pad(ColorFrame(code, m, i, steps[i]))];
      i := i + 1;
    }
    forall j | 0 <= j < |steps|
      ensures PacketHeader(packets[j], code, m, j)
    {
      PacketLayout(code, m, j, steps[j]);
    }
  }

  /** `SetColor`: validates, generates the steps, and writes one padded frame per
      step. The result is the list of packets handed to the transport. */
  method SetColor(channel: string, mode: string, colors: seq<string>) returns (r: Result<seq<seq<byte>>, Error>)
    ensures r.Failure? <==> ColorSteps(channel, mode, colors).Failure?
    ensures r.Failure? ==> r.error == ColorSteps(channel, mode, colors).error
    ensures r.Success? ==>
      && ColorSteps(channel, mode, colors).Success?
      && channel in ColorChannels && mode in ColorModes && |r.value| <= 8
      && FramesFor(r.value, ColorChannels[channel], ColorModes[mode], ColorSteps(channel, mode, colors).value)
  {
    var stepsOrError := ColorSteps(channel, mode, colors);
    if stepsOrError.Failure? {
      return Failure(stepsOrError.error);
    }
    ColorStepsBounds(channel, mode, colors);
    var code, m := ColorChannels[channel], ColorModes[mode];
    var packets := WriteFrames(code, m, stepsOrError.value);
    return Success(packets);
  }
}

=== FILE: interpolate.dfy ===
/** `interpolateProfile` in driver/util.go: a duty for every even temperature
    from 20 to 60. For each grid temperature the original scans the profile,
    moving `lower` to every point at or below it and stopping at the first point
    above it, which becomes `upper`; both are carried over to the next grid
    temperature. The duty is the straight line between them, rounded half away
    from zero. Go computes in `float64`; the model computes the same line on
    exact rationals. */
module Interpolation {
  import opened Arith
  import opened Profile

  // ---------------------------------------------------------------------------
  // The loop as written

  /** The inner loop for grid temperature `t`, from index `i`, with the brackets
      carried in: every point at or below `t` becomes `lower`, and the first
      point above `t` becomes `upper` and ends the scan. */
  function Scan(p: SpeedProfile, t: int, i: nat, lower: Point, upper: Point): (b: (Point, Point))
    requires i <= |p|
    decreases |p| - i
  {
    if i == |p| then (lower, upper)
    else if p[i].temp <= t then Scan(p, t, i + 1, p[i], upper)
    else (lower, p[i])
  }

  /** The duty on the line from `l` to `u` at temperature `t`: `l.duty` when the
      two temperatures coincide, otherwise
      `round(l.duty + (t - l.temp) / (u.temp - l.temp) * (u.duty - l.duty))`,
      written as one exact quotient. */
  function DutyAt(l: Point, u: Point, t: int): int {
    if l.temp == u.temp then l.duty
    else
      var span := u.temp - l.temp;
      RoundDiv(l.duty * span + (t - l.temp) * (u.duty - l.duty), span)
  }

  /** The outer loop over the remaining grid temperatures, with the brackets
      the previous grid temperature left behind. */
  function InterpolateFrom(p: SpeedProfile, grid: seq<int>, lower: Point, upper: Point): (r: SpeedProfile)
    ensures |r| == |grid|
    ensures forall j :: 0 <= j < |grid| ==> r[j].temp == grid[j]
    decreases |grid|
  {
    if |grid| == 0 then []
    else
      var b := Scan(p, grid[0], 0, lower, upper);
      [Point(grid[0], DutyAt(b.0, b.1, grid[0]))] + InterpolateFrom(p, grid[1..], b.0, b.1)
  }

  /** `interpolateProfile(p)`: the brackets start at the first and the last point,
      so `p` must not be empty (Go indexes `p[0]`). */
  function Interpolate(p: SpeedProfile): (r: SpeedProfile)
    requires |p| >= 1
    ensures |r| == 21
    ensures forall j :: 0 <= j < 21 ==> r[j].temp == 20 + 2 * j
  {
    assert Quot(62 - 20, 2) == 21;
    InterpolateFrom(p, MakeRange(20, 62, 2), p[0], p[|p| - 1])
  }

  // ---------------------------------------------------------------------------
  // The reference: the first point hotter than `t` and the one before it

  /** `k` is the first index from `i` on whose point is hotter than `t`, or
      `|p|` when there is none. */
  predicate FirstAbove(p: SpeedProfile, t: int, i: int, k: int) {
    && 0 <= i <= k <= |p|
    && (forall j :: i <= j < k ==> p[j].temp <= t)
    && (k < |p| ==> p[k].temp > t)
  }

  lemma FirstAboveExists(p: SpeedProfile, t: int) returns (k: nat)
    ensures FirstAbove(p, t, 0, k)
  {
    k := 0;
    while k < |p| && p[k].temp <= t
      invariant FirstAbove(p, t, 0, k) || (k <= |p| && forall j :: 0 <= j < k ==> p[j].temp <= t)
      decreases |p| - k
    {
      k := k + 1;
    }
  }

  lemma FirstAboveUnique(p: SpeedProfile, t: int, i: int, k1: int, k2: int)
    requires FirstAbove(p, t, i, k1) && FirstAbove(p, t, i, k2)
    ensures k1 == k2
  {
  }

  /** The duty at grid temperature `t` when `p[k]` is the first point hotter than
      `t`: the first point's duty when every point is hotter, the last point's
      when none is, and otherwise the line from `p[k - 1]` to `p[k]`. */
  function RefDuty(p: SpeedProfile, t: int, k: int): int
    requires |p| >= 1 && FirstAbove(p, t, 0, k)
  {
    if k == 0 then p[0].duty
    else if k == |p| then p[|p| - 1].duty
    else DutyAt(p[k - 1], p[k], t)
  }

  // ---------------------------------------------------------------------------
  // The loop against the reference

  /** One scan ends with `upper` at the first point above `t` (or unchanged when
      there is none) and `lower` at the point before it (or unchanged when that
      lies before `i`). */
  lemma {:induction false} ScanBrackets(p: SpeedProfile, t: int, i: nat, lower: Point, upper: Point, k: int)
    requires i <= |p| && FirstAbove(p, t, i, k)
    ensures Scan(p, t, i, lower, upper) == (if k > i then p[k - 1] else lower, if k < |p| then p[k] else upper)
    decreases |p| - i
  {
    if i < |p| && p[i].temp <= t {
      assert FirstAbove(p, t, i + 1, k);
      ScanBrackets(p, t, i + 1, p[i], upper, k);
    }
  }

  /** Whatever the profile, a scan leaves `lower` at the point carried in or at
      a point of the scanned part no hotter than `t`, and `upper` at the point
      carried in or at a point of the scanned part hotter than `t`. */
  lemma {:induction false} ScanPicks(p: SpeedProfile, t: int, i: nat, lower: Point, upper: Point)
    requires i <= |p|
    ensures var b := Scan(p, t, i, lower, upper);
      && (b.0 == lower || (b.0 in p[i..] && b.0.temp <= t))
      && (b.1 == upper || (b.1 in p[i..] && b.1.temp > t))
    decreases |p| - i
  {
    if i < |p| {
      assert p[i..] == [p[i]] + p[i + 1..];
      if p[i].temp <= t {
        ScanPicks(p, t, i + 1, p[i], upper);
      }
    }
  }

  /** The line through `l` evaluated at `l.temp` is `l.duty`, whatever `u` is. */
  lemma DutyAtLower(l: Point, u: Point)
    ensures DutyAt(l, u, l.temp) == l.duty
  {
    if l.temp != u.temp {
      var span := u.temp - l.temp;
      assert l.duty * span + (l.temp - l.temp) * (u.duty - l.duty) == l.duty * span;
      RoundDivExact(l.duty, span);
    }
  }

  /** Over a rising grid whose temperatures the last point reaches, the loop
      computes the reference duty at every grid temperature, provided the
      carried `lower` is still the first point while the grid is below it. */
  lemma {:induction false} InterpolateFromRef(p: SpeedProfile, grid: seq<int>, lower: Point, upper: Point)
    requires |p| >= 1
    requires forall j :: 0 < j < |grid| ==> grid[j - 1] < grid[j]
    requires forall j :: 0 <= j < |grid| ==> grid[j] <= p[|p| - 1].temp
    requires |grid| > 0 && p[0].temp > grid[0] ==> lower == p[0]
    ensures forall j, k :: 0 <= j < |grid| && FirstAbove(p, grid[j], 0, k) ==>
              InterpolateFrom(p, grid, lower, upper)[j].duty == RefDuty(p, grid[j], k)
    decreases |grid|
  {
    if |grid| > 0 {
      var t := grid[0];
      var k := FirstAboveExists(p, t);
      ScanBrackets(p, t, 0, lower, upper, k);
      var b := Scan(p, t, 0, lower, upper);
      assert DutyAt(b.0, b.1, t) == RefDuty(p, t, k) by {
        if k == |p| {
          assert p[|p| - 1].temp == t;
          DutyAtLower(p[|p| - 1], upper);
        }
      }
      var rest := grid[1..];
      assert |rest| > 0 && p[0].temp > rest[0] ==> b.0 == p[0];
      InterpolateFromRef(p, rest, b.0, b.1);
      var r := InterpolateFrom(p, grid, lower, upper);
      forall j, k' | 0 <= j < |grid| && FirstAbove(p, grid[j], 0, k')
        ensures r[j].duty == RefDuty(p, grid[j], k')
      {
        if j == 0 {
          FirstAboveUnique(p, t, 0, k, k');
        } else {
          assert r[j] == InterpolateFrom(p, rest, b.0, b.1)[j - 1];
          assert grid[j] == rest[j - 1];
        }
      }
    }
  }

  /** The loop from the initial brackets over the grid `20, 22, …, 60`. */
  lemma GridRef(p: SpeedProfile, grid: seq<int>, j: int, k: int)
    requires |p| >= 1 && p[|p| - 1].temp >= 60
    requires |grid| == 21 && forall i :: 0 <= i < 21 ==> grid[i] == 20 + 2 * i
    requires 0 <= j < 21 && FirstAbove(p, 20 + 2 * j, 0, k)
    ensures InterpolateFrom(p, grid, p[0], p[|p| - 1])[j] == Point(20 + 2 * j, RefDuty(p, 20 + 2 * j, k))
  {
    assert forall i :: 0 < i < |grid| ==> grid[i - 1] < grid[i];
    assert forall i :: 0 <= i < |grid| ==> grid[i] <= p[|p| - 1].temp;
    InterpolateFromRef(p, grid, p[0], p[|p| - 1]);
    assert grid[j] == 20 + 2 * j;
    assert FirstAbove(p, grid[j], 0, k);
  }

  /** When the profile reaches 60, `interpolateProfile` yields, at each even
      temperature from 20 to 60, the reference duty: the first point's below the
      profile, otherwise the line from the last point at or below it to the
      first point above it. Normalized profiles with a critical temperature of
      60 or more reach 60. */
  lemma InterpolateMatchesRef(p: SpeedProfile, j: int, k: int)
    requires |p| >= 1 && p[|p| - 1].temp >= 60
    requires 0 <= j < 21 && FirstAbove(p, 20 + 2 * j, 0, k)
    ensures Interpolate(p)[j] == Point(20 + 2 * j, RefDuty(p, 20 + 2 * j, k))
  {
    assert Quot(62 - 20, 2) == 21;
    GridRef(p, MakeRange(20, 62, 2), j, k);
  }

  // ---------------------------------------------------------------------------
  // Consequences

  /** Between two points of rising temperature the line stays between their
      duties. */
  lemma DutyBetween(l: Point, u: Point, t: int)
    requires l.temp <= t <= u.temp && l.temp < u.temp
    ensures Between(DutyAt(l, u, t), l.duty, u.duty)
  {
    var span, s := u.temp - l.temp, t - l.temp;
    LineBetween(l.duty, u.duty, span, s);
  }

  /** Between points of different temperatures the duty is the integer nearest
      the exact value of the line at `t`, a tie going away from zero; at equal
      temperatures it is the lower point's duty. */
  lemma DutyAtNearest(l: Point, u: Point, t: int)
    ensures l.temp == u.temp ==> DutyAt(l, u, t) == l.duty
    ensures l.temp != u.temp ==>
      var r, span, exact := DutyAt(l, u, t), u.temp - l.temp, l.duty * (u.temp - l.temp) + (t - l.temp) * (u.duty - l.duty);
      && 2 * Abs(r * span - exact) <= Abs(span)
      && (2 * Abs(r * span - exact) == Abs(span) ==> Abs(r * span) > Abs(exact))
  {
  }

  /** The line meets the upper point exactly. */
  lemma DutyAtUpper(l: Point, u: Point)
    requires l.temp < u.temp
    ensures DutyAt(l, u, u.temp) == u.duty
  {
    var span := u.temp - l.temp;
    assert l.duty * span + span * (u.duty - l.duty) == u.duty * span;
    RoundDivExact(u.duty, span);
  }

  /** When the profile reaches 60, no interpolated duty leaves the range of the
      duties around it: each lies between the duties of two neighbouring points
      of the profile. */
  lemma InterpolateWithinNeighbours(p: SpeedProfile, j: int)
    requires |p| >= 1 && p[|p| - 1].temp >= 60 && 0 <= j < 21
    ensures exists a, b :: 0 <= a <= b < |p| && b <= a + 1 && Between(Interpolate(p)[j].duty, p[a].duty, p[b].duty)
  {
    var t := 20 + 2 * j;
    var k := FirstAboveExists(p, t);
    InterpolateMatchesRef(p, j, k);
    RefDutyWithin(p, t, k);
  }

  /** The reference duty lies between the duties of two neighbouring points. */
  lemma RefDutyWithin(p: SpeedProfile, t: int, k: int)
    requires |p| >= 1 && FirstAbove(p, t, 0, k)
    ensures exists a, b :: 0 <= a <= b < |p| && b <= a + 1 && Between(RefDuty(p, t, k), p[a].duty, p[b].duty)
  {
    var d := RefDuty(p, t, k);
    if k == 0 {
      assert Between(d, p[0].duty, p[0].duty);
    } else if k == |p| {
      assert Between(d, p[k - 1].duty, p[k - 1].duty);
    } else {
      DutyBetween(p[k - 1], p[k], t);
      assert Between(d, p[k - 1].duty, p[k].duty);
    }
  }

  /** Along a rising line, the rounded duty rises with the temperature. */
  lemma DutyMono(l: Point, u: Point, t1: int, t2: int)
    requires l.temp < u.temp && t1 <= t2 && l.duty <= u.duty
    ensures DutyAt(l, u, t1) <= DutyAt(l, u, t2)
  {
    var span, c := u.temp - l.temp, u.duty - l.duty;
    MulLeMono(t1 - l.temp, t2 - l.temp, c);
    RoundDivMono(l.duty * span + (t1 - l.temp) * c, l.duty * span + (t2 - l.temp) * c, span);
  }

  /** The duties do not fall from one point to a later one. */
  predicate DutiesRise(p: SpeedProfile) {
    forall i, j :: 0 <= i < j < |p| ==> p[i].duty <= p[j].duty
  }

  /** A profile whose duties never fall, and which reaches 60, interpolates to
      duties that never fall either. They need not rise strictly: a flat stretch
      of the profile stays flat. */
  lemma InterpolateMonotone(p: SpeedProfile, j1: int, j2: int)
    requires |p| >= 1 && p[|p| - 1].temp >= 60 && DutiesRise(p)
    requires 0 <= j1 < j2 < 21
    ensures Interpolate(p)[j1].duty <= Interpolate(p)[j2].duty
  {
    var t1, t2 := 20 + 2 * j1, 20 + 2 * j2;
    var k1 := FirstAboveExists(p, t1);
    var k2 := FirstAboveExists(p, t2);
    InterpolateMatchesRef(p, j1, k1);
    InterpolateMatchesRef(p, j2, k2);
    RefDutyMono(p, t1, k1, t2, k2);
  }

  /** With rising duties, the reference duty does not fall as the temperature
      rises. */
  lemma RefDutyMono(p: SpeedProfile, t1: int, k1: int, t2: int, k2: int)
    requires |p| >= 1 && DutiesRise(p) && t1 <= t2
    requires FirstAbove(p, t1, 0, k1) && FirstAbove(p, t2, 0, k2)
    ensures RefDuty(p, t1, k1) <= RefDuty(p, t2, k2)
  {
    assert k1 <= k2;
    if k1 == k2 {
      if 0 < k1 < |p| {
        DutyMono(p[k1 - 1], p[k1], t1, t2);
      }
    } else {
      RefDutyBelowNext(p, t1, k1);
      RefDutyAbovePrevious(p, t2, k2);
      assert p[k1].duty <= p[k2 - 1].duty;
    }
  }

  /** With rising duties, the reference duty is at most that of the first point
      above. */
  lemma RefDutyBelowNext(p: SpeedProfile, t: int, k: int)
    requires |p| >= 1 && DutiesRise(p) && FirstAbove(p, t, 0, k) && k < |p|
    ensures RefDuty(p, t, k) <= p[k].duty
  {
    if k > 0 {
      DutyBetween(p[k - 1], p[k], t);
    }
  }

  /** With rising duties, the reference duty is at least that of the last point
      at or below. */
  lemma RefDutyAbovePrevious(p: SpeedProfile, t: int, k: int)
    requires |p| >= 1 && DutiesRise(p) && FirstAbove(p, t, 0, k) && k > 0
    ensures p[k - 1].duty <= RefDuty(p, t, k)
  {
    if k < |p| {
      DutyBetween(p[k - 1], p[k], t);
    }
  }

  // The example lemmas take the profile as a parameter pinned by `requires`
  // rather than the literal itself: the solver then reasons about `p` and only
  // unfolds the literal where a step needs it, which keeps each proof small.

  /** A profile that stops short of 60 leaves `upper` behind its last point, and
      the line through the two extrapolates past every duty of the profile: at
      24, `[20 0, 21 10, 22 20]` gives 40. */
  lemma StaleUpperExample(p: SpeedProfile)
    requires p == [Point(20, 0), Point(21, 10), Point(22, 20)]
    ensures Interpolate(p)[2] == Point(24, 40)
    ensures forall i :: 0 <= i < |p| ==> p[i].duty < 40
  {
    StaleUpperDuty(p);
  }

  lemma StaleUpperDuty(p: SpeedProfile)
    requires p == [Point(20, 0), Point(21, 10), Point(22, 20)]
    ensures Interpolate(p)[2] == Point(24, 40)
  {
    assert Quot(62 - 20, 2) == 21;
    var g := MakeRange(20, 62, 2);
    assert g[0] == 20 && g[1] == 22 && g[2] == 24;
    InterpolateThird(p, g, p[0], p[2]);
    StaleScans(p);
    assert DutyAt(p[2], p[1], 24) == 40 by {
      assert 20 * -1 + (24 - 22) * (10 - 20) == 40 * -1;
      RoundDivExact(40, -1);
    }
  }

  /** The three scans behind the third point: 22 leaves `upper` at the second
      point, which 24 does not replace. */
  lemma StaleScans(p: SpeedProfile)
    requires p == [Point(20, 0), Point(21, 10), Point(22, 20)]
    ensures Scan(p, 20, 0, p[0], p[2]) == (p[0], p[1])
    ensures Scan(p, 22, 0, p[0], p[1]) == (p[2], p[1])
    ensures Scan(p, 24, 0, p[2], p[1]) == (p[2], p[1])
  {
    assert FirstAbove(p, 20, 0, 1);
    ScanBrackets(p, 20, 0, p[0], p[2], 1);
    assert FirstAbove(p, 22, 0, 3);
    ScanBrackets(p, 22, 0, p[0], p[1], 3);
    assert FirstAbove(p, 24, 0, 3);
    ScanBrackets(p, 24, 0, p[2], p[1], 3);
  }

  /** The third point of the loop, computed from the brackets the first two
      scans leave behind. */
  lemma InterpolateThird(p: SpeedProfile, g: seq<int>, lower: Point, upper: Point)
    requires |g| >= 3
    ensures var b0 := Scan(p, g[0], 0, lower, upper);
      var b1 := Scan(p, g[1], 0, b0.0, b0.1);
      var b2 := Scan(p, g[2], 0, b1.0, b1.1);
      InterpolateFrom(p, g, lower, upper)[2] == Point(g[2], DutyAt(b2.0, b2.1, g[2]))
  {
    var b0 := Scan(p, g[0], 0, lower, upper);
    var b1 := Scan(p, g[1], 0, b0.0, b0.1);
    assert InterpolateFrom(p, g, lower, upper)[2] == InterpolateFrom(p, g[1..], b0.0, b0.1)[1];
    assert InterpolateFrom(p, g[1..], b0.0, b0.1)[1] == InterpolateFrom(p, g[2..], b1.0, b1.1)[0];
    assert g[1..][0] == g[1] && g[2..][0] == g[2];
  }

  /** In a profile reaching 60, a point on the grid with no hotter point
      before it, and a hotter point or none after it, gets its own duty. */
  lemma InterpolateKeepsPoints(p: SpeedProfile, j: int, i: int)
    requires |p| >= 1 && p[|p| - 1].temp >= 60 && 0 <= j < 21
    requires 0 <= i < |p| && p[i].temp == 20 + 2 * j
    requires i + 1 < |p| ==> p[i + 1].temp > p[i].temp
    requires forall h :: 0 <= h < i ==> p[h].temp <= p[i].temp
    ensures Interpolate(p)[j] == Point(20 + 2 * j, p[i].duty)
  {
    var t := 20 + 2 * j;
    PointFirstAbove(p, t, i);
    InterpolateMatchesRef(p, j, i + 1);
    RefDutyAtPoint(p, t, i);
  }

  /** A point at `t` with no later point at `t` and none hotter before it is
      followed by the first point above `t`. */
  lemma PointFirstAbove(p: SpeedProfile, t: int, i: int)
    requires 0 <= i < |p| && p[i].temp == t
    requires i + 1 < |p| ==> p[i + 1].temp > p[i].temp
    requires forall h :: 0 <= h < i ==> p[h].temp <= p[i].temp
    ensures FirstAbove(p, t, 0, i + 1)
  {
    assert forall h :: 0 <= h < i + 1 ==> p[h].temp <= t;
  }

  /** The reference duty at a point's own temperature is the point's duty. */
  lemma RefDutyAtPoint(p: SpeedProfile, t: int, i: int)
    requires 0 <= i < |p| && p[i].temp == t && FirstAbove(p, t, 0, i + 1)
    ensures RefDuty(p, t, i + 1) == p[i].duty
  {
    if i + 1 < |p| {
      DutyAtLower(p[i], p[i + 1]);
    }
  }

  /** A grid temperature below the first point gets the first point's duty. */
  lemma InterpolateBelowFirst(p: SpeedProfile, j: int)
    requires |p| >= 1 && p[|p| - 1].temp >= 60 && 0 <= j < 21
    requires 20 + 2 * j < p[0].temp
    ensures Interpolate(p)[j] == Point(20 + 2 * j, p[0].duty)
  {
    assert FirstAbove(p, 20 + 2 * j, 0, 0);
    InterpolateMatchesRef(p, j, 0);
  }

  // ---------------------------------------------------------------------------
  // Examples

  /** The profile of the original's interpolation test. */
  const TestProfile: SpeedProfile := [Point(20, 25), Point(35, 25), Point(50, 55), Point(60, 100)]

  /** Up to 34 the test profile's duty is flat at 25. */
  lemma TestFlat(p: SpeedProfile, j: int)
    requires p == TestProfile && 0 <= j < 8
    ensures Interpolate(p)[j].duty == 25
  {
    var t := 20 + 2 * j;
    assert FirstAbove(p, t, 0, 1);
    InterpolateMatchesRef(p, j, 1);
    assert 25 * 15 + (t - 20) * 0 == 25 * 15;
    RoundDivExact(25, 15);
  }

  /** From 36 to 48 it climbs 2 per degree. */
  lemma TestMiddle(p: SpeedProfile, j: int)
    requires p == TestProfile && 8 <= j < 15
    ensures Interpolate(p)[j].duty == 4 * j - 5
  {
    var t := 20 + 2 * j;
    assert FirstAbove(p, t, 0, 2);
    InterpolateMatchesRef(p, j, 2);
    assert 25 * 15 + (t - 35) * 30 == (25 + 2 * (t - 35)) * 15;
    RoundDivExact(25 + 2 * (t - 35), 15);
  }

  /** From 50 to 58 it climbs 4.5 per degree. */
  lemma TestTop(p: SpeedProfile, j: int)
    requires p == TestProfile && 15 <= j < 20
    ensures Interpolate(p)[j].duty == 9 * j - 80
  {
    var t := 20 + 2 * j;
    assert FirstAbove(p, t, 0, 3);
    InterpolateMatchesRef(p, j, 3);
    assert 55 * 10 + (t - 50) * 45 == (55 + 9 * (j - 15)) * 10;
    RoundDivExact(55 + 9 * (j - 15), 10);
  }

  /** At 60 it reaches the last point. */
  lemma TestEnd(p: SpeedProfile)
    requires p == TestProfile
    ensures Interpolate(p)[20] == Point(60, 100)
  {
    assert FirstAbove(p, 60, 0, 4);
    InterpolateMatchesRef(p, 20, 4);
  }

  /** The original's interpolation test, `[20 25, 22 25, …, 34 25, 36 27, 38 31,
      …, 48 51, 50 55, 52 64, …, 58 91, 60 100]`, segment by segment. */
  lemma TestProfileTable(p: SpeedProfile)
    requires p == TestProfile
    ensures |Interpolate(p)| == 21
    ensures forall j :: 0 <= j < 8 ==> Interpolate(p)[j] == Point(20 + 2 * j, 25)
    ensures forall j :: 8 <= j < 15 ==> Interpolate(p)[j] == Point(20 + 2 * j, 4 * j - 5)
    ensures forall j :: 15 <= j < 20 ==> Interpolate(p)[j] == Point(20 + 2 * j, 9 * j - 80)
    ensures Interpolate(p)[20] == Point(60, 100)
    ensures Interpolate(p)[8] == Point(36, 27) && Interpolate(p)[16] == Point(52, 64)
  {
    var r := Interpolate(p);
    forall j | 0 <= j < 8
      ensures r[j] == Point(20 + 2 * j, 25)
    {
      TestFlat(p, j);
    }
    forall j | 8 <= j < 15
      ensures r[j] == Point(20 + 2 * j, 4 * j - 5)
    {
      TestMiddle(p, j);
    }
    forall j | 15 <= j < 20
      ensures r[j] == Point(20 + 2 * j, 9 * j - 80)
    {
      TestTop(p, j);
    }
    TestEnd(p);
  }

  /** The segments of the table spelled out point by point. */
  lemma TableSpelled(r: SpeedProfile)
    requires |r| == 21
    requires forall j :: 0 <= j < 8 ==> r[j] == Point(20 + 2 * j, 25)
    requires forall j :: 8 <= j < 15 ==> r[j] == Point(20 + 2 * j, 4 * j - 5)
    requires forall j :: 15 <= j < 20 ==> r[j] == Point(20 + 2 * j, 9 * j - 80)
    requires r[20] == Point(60, 100)
    ensures r == [
        Point(20, 25), Point(22, 25), Point(24, 25), Point(26, 25), Point(28, 25),
        Point(30, 25), Point(32, 25), Point(34, 25), Point(36, 27), Point(38, 31),
        Point(40, 35), Point(42, 39), Point(44, 43), Point(46, 47), Point(48, 51),
        Point(50, 55), Point(52, 64), Point(54, 73), Point(56, 82), Point(58, 91),
        Point(60, 100)]
  {
  }

  /** The original's interpolation test, with the table as the test lists it. */
  lemma TestProfileLiteral(p: SpeedProfile)
    requires p == TestProfile
    ensures Interpolate(p) == [
        Point(20, 25), Point(22, 25), Point(24, 25), Point(26, 25), Point(28, 25),
        Point(30, 25), Point(32, 25), Point(34, 25), Point(36, 27), Point(38, 31),
        Point(40, 35), Point(42, 39), Point(44, 43), Point(46, 47), Point(48, 51),
        Point(50, 55), Point(52, 64), Point(54, 73), Point(56, 82), Point(58, 91),
        Point(60, 100)]
  {
    TestProfileTable(p);
    TableSpelled(Interpolate(p));
  }
}

=== FILE: palette.dfy ===
/** Colours from the command line: `colorFromHexString` and `paletteFromColors`
    (driver/util.go). A colour keeps Go's `color.RGBA` fields; the alpha channel is
    always 1, as the original writes it, and is never sent to the device. */
module Palette {
  import opened Wrappers
  import opened Errors
  import opened Bits

  datatype Rgba = Rgba(r: byte, g: byte, b: byte, a: byte)

  /** `color.RGBA{A: 1}`: the black stand-in used where a mode needs a colour but
      none was given. */
  const Placeholder: Rgba := Rgba(0, 0, 0, 1)

  predicate IsHexDigit(c: char) {
    ('0' <= c <= '9') || ('a' <= c <= 'f') || ('A' <= c <= 'F')
  }

  function HexValue(c: char): (v: nat)
    requires IsHexDigit(c)
    ensures v < 16
  {
    if '0' <= c <= '9' then (c as int) - ('0' as int)
    else if 'a' <= c <= 'f' then (c as int) - ('a' as int) + 10
    else (c as int) - ('A' as int) + 10
  }

  predicate AllHex(s: string) {
    forall i :: 0 <= i < |s| ==> IsHexDigit(s[i])
  }

  /** The byte spelled by the two hex digits at `s[2 * i]` and `s[2 * i + 1]`. */
  function PairValue(s: string, i: nat): byte
    requires 2 * i + 1 < |s| && IsHexDigit(s[2 * i]) && IsHexDigit(s[2 * i + 1])
  {
    16 * HexValue(s[2 * i]) + HexValue(s[2 * i + 1])
  }

  lemma AllHexSplit(s: string)
    requires |s| >= 2
    ensures AllHex(s) <==> IsHexDigit(s[0]) && IsHexDigit(s[1]) && AllHex(s[2..])
  {
    if IsHexDigit(s[0]) && IsHexDigit(s[1]) && AllHex(s[2..]) {
      forall i | 2 <= i < |s| ensures IsHexDigit(s[i]) {
        assert s[i] == s[2..][i - 2];
      }
    }
  }

  /** `hex.DecodeString`: pairs of digits, left to right. The first character
      that is not a digit is reported, even when the length is also odd; an odd
      length is reported only when every character is a digit. */
  function HexDecode(s: string): (r: Result<seq<byte>, HexError>)
    ensures r.Success? <==> |s| % 2 == 0 && AllHex(s)
    ensures r.Success? ==> |r.value| == |s| / 2
    ensures r.Success? ==> forall i :: 0 <= i < |r.value| ==> r.value[i] == PairValue(s, i)
    decreases |s|
  {
    if |s| == 0 then Success([])
    else if !IsHexDigit(s[0]) then Failure(InvalidByte(s[0]))
    else if |s| == 1 then Failure(OddLength)
    else if !IsHexDigit(s[1]) then Failure(InvalidByte(s[1]))
    else
      AllHexSplit(s);
      match HexDecode(s[2..])
      case Failure(e) => Failure(e)
      case Success(rest) =>
        var out := [PairValue(s, 0)] + rest;
        PairValuesTail(s, rest);
        Success(out)
  }

  /** The pairs of `s[2..]` are the pairs of `s` after the first. */
  lemma PairValuesTail(s: string, rest: seq<byte>)
    requires |s| >= 2 && |s| % 2 == 0 && AllHex(s) && 2 * |rest| + 2 == |s|
    requires forall i :: 0 <= i < |rest| ==> rest[i] == PairValue(s[2..], i)
    ensures forall i :: 1 <= i <= |rest| ==> ([PairValue(s, 0)] + rest)[i] == PairValue(s, i)
  {
    forall i | 1 <= i <= |rest|
      ensures ([PairValue(s, 0)] + rest)[i] == PairValue(s, i)
    {
      assert s[2..][2 * (i - 1)] == s[2 * i] && s[2..][2 * (i - 1) + 1] == s[2 * i + 1];
    }
  }

  /** Which failure `HexDecode` reports: the first non-digit character, and an
      odd length only when there is none. */
  lemma {:induction false} HexDecodeFailure(s: string)
    ensures HexDecode(s) == Failure(OddLength) <==> |s| % 2 == 1 && AllHex(s)
    ensures HexDecode(s).Failure? && HexDecode(s).error.InvalidByte? ==>
      exists k :: 0 <= k < |s| && s[k] == HexDecode(s).error.c && !IsHexDigit(s[k]) && AllHex(s[..k])
    decreases |s|
  {
    if |s| == 0 {
    } else if !IsHexDigit(s[0]) {
      assert s[..0] == [];
    } else if |s| == 1 {
    } else if !IsHexDigit(s[1]) {
      assert AllHex(s[..1]);
    } else {
      AllHexSplit(s);
      HexDecodeFailure(s[2..]);
      var r := HexDecode(s[2..]);
      if r.Failure? && r.error.InvalidByte? {
        var k :| 0 <= k < |s[2..]| && s[2..][k] == r.error.c && !IsHexDigit(s[2..][k]) && AllHex(s[2..][..k]);
        assert s[..k + 2][2..] == s[2..][..k];
        AllHexSplit(s[..k + 2]);
        assert s[k + 2] == s[2..][k];
      }
    }
  }

  /** Two hex digits for a byte, in lower or upper case (`hex.EncodeToString` uses
      lower case). */
  function HexDigit(v: nat, upper: bool): (c: char)
    requires v < 16
    ensures IsHexDigit(c) && HexValue(c) == v
  {
    if v < 10 then (('0' as int) + v) as char
    else if upper then (('A' as int) + v - 10) as char
    else (('a' as int) + v - 10) as char
  }

  function HexEncode(bs: seq<byte>, upper: bool): (s: string)
    ensures |s| == 2 * |bs| && AllHex(s)
  {
    if |bs| == 0 then ""
    else [HexDigit(bs[0] / 16, upper), HexDigit(bs[0] % 16, upper)] + HexEncode(bs[1..], upper)
  }

  /** Decoding what was encoded, in either case, gives back the bytes. */
  lemma {:induction false} HexRoundTrip(bs: seq<byte>, upper: bool)
    ensures HexDecode(HexEncode(bs, upper)) == Success(bs)
    decreases |bs|
  {
    if |bs| > 0 {
      HexRoundTrip(bs[1..], upper);
      var s := HexEncode(bs, upper);
      assert s[2..] == HexEncode(bs[1..], upper);
      assert PairValue(s, 0) == 16 * (bs[0] / 16) + bs[0] % 16 == bs[0];
      assert [bs[0]] + bs[1..] == bs;
    }
  }

  /** `colorFromHexString`: the first three decoded bytes become R, G and B, and
      any further bytes are ignored. Go indexes `b[2]` without a length check, so
      a string of fewer than three bytes panics; here it is `ShortColor`. */
  function ColorFromHexString(c: string): (r: Result<Rgba, Error>)
    ensures r.Success? <==> |c| % 2 == 0 && AllHex(c) && |c| >= 6
    ensures r.Success? ==> r.value == Rgba(PairValue(c, 0), PairValue(c, 1), PairValue(c, 2), 1)
    ensures r.Failure? && AllHex(c) && |c| % 2 == 0 ==> r.error == ShortColor(c)
    ensures r.Failure? && !(AllHex(c) && |c| % 2 == 0) ==> r.error == MalformedColor(c, HexDecode(c).error)
  {
    match HexDecode(c)
    case Failure(e) => Failure(MalformedColor(c, e))
    case Success(b) =>
      if |b| < 3 then Failure(ShortColor(c)) else Success(Rgba(b[0], b[1], b[2], 1))
  }

  /** A colour written as six hex digits, in either case, reads back as itself. */
  lemma ColorRoundTrip(r: byte, g: byte, b: byte, upper: bool)
    ensures ColorFromHexString(HexEncode([r, g, b], upper)) == Success(Rgba(r, g, b, 1))
  {
    HexRoundTrip([r, g, b], upper);
  }

  lemma ColorExamples()
    ensures ColorFromHexString("ff0000") == Success(Rgba(255, 0, 0, 1))
    ensures ColorFromHexString("foobar") == Failure(MalformedColor("foobar", InvalidByte('o')))
  {
    assert HexEncode([255, 0, 0], false) == "ff0000";
    ColorRoundTrip(255, 0, 0, false);
  }

  /** The colour a token stands for, when it stands for one. */
  predicate ValidColor(token: string) {
    ColorFromHexString(token).Success?
  }

  /** `colors[k]` is the first token that is not a colour. */
  predicate FirstInvalid(colors: seq<string>, k: int) {
    0 <= k < |colors| && !ValidColor(colors[k]) && forall j :: 0 <= j < k ==> ValidColor(colors[j])
  }

  /** `paletteFromColors`: one colour per token, in order; the first bad token
      fails the whole call and no partial palette is returned. A nil and an empty
      list are both the empty sequence, and both give the empty palette. */
  function PaletteFromColors(colors: seq<string>): (r: Result<seq<Rgba>, Error>)
    ensures r.Success? <==> forall i :: 0 <= i < |colors| ==> ValidColor(colors[i])
    ensures r.Success? ==> |r.value| == |colors|
    ensures r.Success? ==> forall i :: 0 <= i < |colors| ==> r.value[i] == ColorFromHexString(colors[i]).value
    ensures r.Failure? ==> exists k :: FirstInvalid(colors, k) && r.error == ColorFromHexString(colors[k]).error
    decreases |colors|
  {
    if |colors| == 0 then Success([])
    else
      match ColorFromHexString(colors[0])
      case Failure(e) => Failure(e)
      case Success(c) =>
        match PaletteFromColors(colors[1..])
        case Failure(e) =>
          assert exists k :: FirstInvalid(colors, k) && e == ColorFromHexString(colors[k]).error by {
            var k :| FirstInvalid(colors[1..], k) && e == ColorFromHexString(colors[1..][k]).error;
            FirstInvalidShift(colors, k);
          }
          Failure(e)
        case Success(rest) =>
          assert forall i :: 1 <= i < |colors| ==> colors[i] == colors[1..][i - 1];
          Success([c] + rest)
  }

  /** A first bad token after a good one is the first bad token of the whole. */
  lemma FirstInvalidShift(colors: seq<string>, k: int)
    requires |colors| >= 1 && ValidColor(colors[0]) && FirstInvalid(colors[1..], k)
    ensures FirstInvalid(colors, k + 1) && colors[k + 1] == colors[1..][k]
  {
    forall j | 0 <= j < k + 1 ensures ValidColor(colors[j]) {
      if j > 0 { assert colors[j] == colors[1..][j - 1]; }
    }
  }

  lemma PaletteExample(cs: seq<string>)
    requires cs == ["FF0000", "00FF00", "0000FF"]
    ensures PaletteFromColors(cs) == Success([Rgba(255, 0, 0, 1), Rgba(0, 255, 0, 1), Rgba(0, 0, 255, 1)])
  {
    ExampleHexStrings();
    ColorRoundTrip(255, 0, 0, true);
    ColorRoundTrip(0, 255, 0, true);
    ColorRoundTrip(0, 0, 255, true);
    PaletteOfThree(cs, Rgba(255, 0, 0, 1), Rgba(0, 255, 0, 1), Rgba(0, 0, 255, 1));
  }

  lemma ExampleHexStrings()
    ensures HexEncode([255, 0, 0], true) == "FF0000"
    ensures HexEncode([0, 255, 0], true) == "00FF00"
    ensures HexEncode([0, 0, 255], true) == "0000FF"
  {
  }

  /** Three tokens that read as colours give the palette of those colours. */
  lemma PaletteOfThree(cs: seq<string>, a: Rgba, b: Rgba, c: Rgba)
    requires |cs| == 3
    requires ColorFromHexString(cs[0]) == Success(a)
    requires ColorFromHexString(cs[1]) == Success(b)
    requires ColorFromHexString(cs[2]) == Success(c)
    ensures PaletteFromColors(cs) == Success([a, b, c])
  {
    forall i | 0 <= i < 3
      ensures ValidColor(cs[i])
    {
      assert i == 0 || i == 1 || i == 2;
    }
    var r := PaletteFromColors(cs);
    assert r.Success? && |r.value| == 3;
    assert r.value[0] == a && r.value[1] == b && r.value[2] == c;
    assert r.value == [a, b, c];
  }

  lemma PaletteInvalidExample()
    ensures PaletteFromColors(["foobar"]) == Failure(MalformedColor("foobar", InvalidByte('o')))
  {
    ColorExamples();
    assert ["foobar"][0] == "foobar";
  }
}

=== FILE: profile.dfy ===
/** The speed-profile text and its first two stages in driver/util.go:
    `makeRange`, `parseProfile` and `normalizeProfile`. */
module Profile {
  import opened Wrappers
  import opened Errors
  import opened Text
  import opened Arith

  /** One (temperature, duty) pair of a `SpeedProfile`; Go stores it as a
      two-element `[]int`. */
  datatype Point = Point(temp: int, duty: int)

  type SpeedProfile = seq<Point>

  /** The loop of `makeRange`: `n` values from `min`, `step` apart. */
  function Steps(min: int, step: int, n: nat): (a: seq<int>)
    ensures |a| == n
    ensures forall i :: 0 <= i < n ==> a[i] == min + i * step
    decreases n
  {
    if n == 0 then [] else [min] + Steps(min + step, step, n - 1)
  }

  /** `makeRange(min, max, step)`: Go's `(max - min) / step` values (division
      truncating toward zero), starting at `min`, `step` apart. Go panics for
      `step == 0` (division by zero) and for a negative length (`make`), so
      callers provide neither. */
  function MakeRange(min: int, max: int, step: int): (a: seq<int>)
    requires step != 0 && Quot(max - min, step) >= 0
    ensures |a| == Quot(max - min, step)
    ensures forall i :: 0 <= i < |a| ==> a[i] == min + i * step
  {
    Steps(min, step, Quot(max - min, step))
  }

  /** The grid `interpolateProfile` uses runs from 20 to 60 in steps of 2: the
      bound 62 is excluded. A short or backward range is empty rather than an
      error, because Go's division truncates toward zero. */
  lemma MakeRangeExamples()
    ensures MakeRange(10, 22, 2) == [10, 12, 14, 16, 18, 20]
    ensures |MakeRange(20, 62, 2)| == 21
    ensures forall i :: 0 <= i < 21 ==> MakeRange(20, 62, 2)[i] == 20 + 2 * i
    ensures MakeRange(5, 4, 2) == []
    ensures MakeRange(0, -5, -2) == [0, -2]
  {
    var a := MakeRange(10, 22, 2);
    assert |a| == 6;
    assert a[0] == 10 && a[1] == 12 && a[2] == 14 && a[3] == 16 && a[4] == 18 && a[5] == 20;
    var b := MakeRange(0, -5, -2);
    assert |b| == 2 && b[0] == 0 && b[1] == -2;
  }

  // ---------------------------------------------------------------------------
  // parseProfile

  /** One segment of profile text, "temp duty": split on single spaces; the first
      two tokens must be integers and any further tokens are ignored. */
  function ParsePoint(segment: string): (r: Result<Point, Error>)
    ensures r.Failure? ==> r.error == InvalidProfileSyntax(segment) || r.error.InvalidInteger?
  {
    var p := Split(segment, " ");
    if |p| < 2 then Failure(InvalidProfileSyntax(segment))
    else
      var temp :- Atoi(p[0]);
      var duty :- Atoi(p[1]);
      Success(Point(temp, duty))
  }

  /** Every segment parses. */
  predicate AllParse(segments: seq<string>) {
    forall i :: 0 <= i < |segments| ==> ParsePoint(segments[i]).Success?
  }

  /** `segments[k]` is the first segment that does not parse. */
  predicate FirstBadSegment(segments: seq<string>, k: int) {
    && 0 <= k < |segments|
    && ParsePoint(segments[k]).Failure?
    && forall j :: 0 <= j < k ==> ParsePoint(segments[j]).Success?
  }

  /** The segments in order, each parsed; the first bad one is the failure. */
  function ParseSegments(segments: seq<string>): (r: Result<SpeedProfile, Error>)
    ensures r.Success? <==> AllParse(segments)
    ensures r.Success? ==> |r.value| == |segments|
    ensures r.Success? ==> forall i :: 0 <= i < |segments| ==> r.value[i] == ParsePoint(segments[i]).value
    decreases |segments|
  {
    if |segments| == 0 then Success([])
    else
      match ParsePoint(segments[0])
      case Failure(e) => Failure(e)
      case Success(point) =>
        AllParseCons(segments);
        match ParseSegments(segments[1..])
        case Failure(e) => Failure(e)
        case Success(rest) =>
          assert forall i :: 1 <= i < |segments| ==> segments[i] == segments[1..][i - 1];
          Success([point] + rest)
  }

  lemma AllParseCons(segments: seq<string>)
    requires |segments| >= 1
    ensures AllParse(segments) <==> ParsePoint(segments[0]).Success? && AllParse(segments[1..])
  {
    var rest := segments[1..];
    if AllParse(segments) {
      forall i | 0 <= i < |rest| ensures ParsePoint(rest[i]).Success? {
        assert rest[i] == segments[i + 1];
      }
    }
    if ParsePoint(segments[0]).Success? && AllParse(rest) {
      forall i | 1 <= i < |segments| ensures ParsePoint(segments[i]).Success? {
        assert segments[i] == rest[i - 1];
      }
    }
  }

  /** `parseProfile`: "t d  t d ..." with pairs separated by two spaces. A
      segment with fewer than two tokens, or a token that is not an integer, is
      fatal in the original and a failure here. */
  function ParseProfile(s: string): (r: Result<SpeedProfile, Error>)
    ensures r.Success? ==> |r.value| == |Split(s, "  ")| >= 1
    ensures r.Success? <==> AllParse(Split(s, "  "))
    ensures r.Success? ==> forall k :: 0 <= k < |r.value| ==> r.value[k] == ParsePoint(Split(s, "  ")[k]).value
  {
    ParseSegments(Split(s, "  "))
  }

  /** Two integers written with one space between them parse to that point. */
  lemma ParsePointPair(a: string, b: string)
    requires Atoi(a).Success? && Atoi(b).Success?
    ensures ParsePoint(a + " " + b) == Success(Point(Atoi(a).value, Atoi(b).value))
  {
    SeparatorFree(a, " ");
    SeparatorFree(b, " ");
    SplitJoin([a, b], " ");
    assert Join([a, b], " ") == a + " " + b;
  }

  /** A space-free word followed by a space splits into the word and the tokens
      of what follows. */
  lemma SplitSpaceCons(a: string, rest: string)
    requires ' ' !in a
    ensures Split(a + " " + rest, " ") == [a] + Split(rest, " ")
  {
    SeparatorFree(a, " ");
    PrefixMatch(a, " ", rest);
    var s := a + " " + rest;
    assert s[..|a|] == a;
    assert s[|a| + 1..] == rest;
  }

  /** A segment is read from its first two space-separated tokens alone: the
      first bad token is the failure, and whatever follows the second token is
      ignored. */
  lemma ParsePointTokens(a: string, b: string, tail: string)
    requires ' ' !in a && ' ' !in b
    requires tail == "" || tail[0] == ' '
    ensures Atoi(a).Failure? ==> ParsePoint(a + " " + b + tail) == Failure(Atoi(a).error)
    ensures Atoi(a).Success? && Atoi(b).Failure? ==> ParsePoint(a + " " + b + tail) == Failure(Atoi(b).error)
    ensures Atoi(a).Success? && Atoi(b).Success?
      ==> ParsePoint(a + " " + b + tail) == Success(Point(Atoi(a).value, Atoi(b).value))
  {
    SplitTwoTokens(a, b, tail);
  }

  /** The first two tokens of such a segment are `a` and `b`. */
  lemma SplitTwoTokens(a: string, b: string, tail: string)
    requires ' ' !in a && ' ' !in b
    requires tail == "" || tail[0] == ' '
    ensures var p := Split(a + " " + b + tail, " "); |p| >= 2 && p[0] == a && p[1] == b
  {
    if tail == "" {
      assert a + " " + b + tail == a + " " + b;
      SplitSpaceCons(a, b);
      SeparatorFree(b, " ");
      assert Split(b, " ") == [b];
    } else {
      var rest := tail[1..];
      assert a + " " + b + tail == a + " " + (b + " " + rest);
      SplitSpaceCons(a, b + " " + rest);
      SplitSpaceCons(b, rest);
    }
  }

  /** A segment without a space is a single token, which the original rejects
      as a missing duty. */
  lemma ParsePointSingle(a: string)
    requires ' ' !in a
    ensures ParsePoint(a) == Failure(InvalidProfileSyntax(a))
  {
    SeparatorFree(a, " ");
    assert Split(a, " ") == [a];
  }

  /** Parsing stops at the first segment that does not parse, with its error. */
  lemma {:induction false} ParseSegmentsFirstBad(segments: seq<string>, k: int)
    requires FirstBadSegment(segments, k)
    ensures ParseSegments(segments) == Failure(ParsePoint(segments[k]).error)
    decreases k
  {
    if k > 0 {
      assert FirstBadSegment(segments[1..], k - 1) by {
        assert forall j :: 0 <= j < k - 1 ==> segments[1..][j] == segments[j + 1];
        assert segments[1..][k - 1] == segments[k];
        assert ParsePoint(segments[0]).Success?;
      }
      ParseSegmentsFirstBad(segments[1..], k - 1);
      assert ParseSegments(segments[1..]) == Failure(ParsePoint(segments[k]).error);
    }
  }

  // ---------------------------------------------------------------------------
  // normalizeProfile

  predicate SortedByTemp(p: SpeedProfile) {
    forall i, j :: 0 <= i < j < |p| ==> p[i].temp <= p[j].temp
  }

  /** A point no hotter than the head of a sorted profile extends it sorted. */
  lemma ConsSorted(a: Point, s: SpeedProfile)
    requires SortedByTemp(s) && (|s| > 0 ==> a.temp <= s[0].temp)
    ensures SortedByTemp([a] + s)
  {
    var r := [a] + s;
    forall i, j | 0 <= i < j < |r|
      ensures r[i].temp <= r[j].temp
    {
      if i > 0 {
        assert r[i] == s[i - 1] && r[j] == s[j - 1];
      } else {
        assert r[j] == s[j - 1];
      }
    }
  }

  /** `x` placed before the first point of the sorted `p` that is hotter than it:
      after every point of equal temperature, which keeps the sort stable. */
  function Insert(x: Point, p: SpeedProfile): (r: SpeedProfile)
    requires SortedByTemp(p)
    ensures SortedByTemp(r)
    ensures |r| == |p| + 1
    ensures |p| == 0 ==> r == [x]
    ensures |p| > 0 ==> r[0] == x || r[0] == p[0]
    decreases |p|
  {
    if |p| == 0 then [x]
    else if x.temp < p[0].temp then
      ConsSorted(x, p);
      [x] + p
    else
      assert p == [p[0]] + p[1..];
      assert SortedByTemp(p[1..]);
      var rest := Insert(x, p[1..]);
      assert p[0].temp <= rest[0].temp;
      ConsSorted(p[0], rest);
      [p[0]] + rest
  }

  /** Insertion sort by temperature, stable: the order in which `sort.Slice`
      happens to leave equal temperatures for short profiles, made definite. */
  function SortByTemp(p: SpeedProfile): (r: SpeedProfile)
    ensures SortedByTemp(r)
    ensures |r| == |p|
    decreases |p|
  {
    if |p| == 0 then []
    else
      assert p == p[..|p| - 1] + [p[|p| - 1]];
      Insert(p[|p| - 1], SortByTemp(p[..|p| - 1]))
  }

  /** Inserting adds exactly `x` to the points. */
  lemma {:induction false} InsertPermutes(x: Point, p: SpeedProfile)
    requires SortedByTemp(p)
    ensures multiset(Insert(x, p)) == multiset(p) + multiset{x}
    decreases |p|
  {
    if |p| > 0 && x.temp >= p[0].temp {
      assert p == [p[0]] + p[1..];
      InsertPermutes(x, p[1..]);
    }
  }

  /** Sorting keeps exactly the points it was given. */
  lemma {:induction false} SortPermutes(p: SpeedProfile)
    ensures multiset(SortByTemp(p)) == multiset(p)
    decreases |p|
  {
    if |p| > 0 {
      var init := p[..|p| - 1];
      assert p == init + [p[|p| - 1]];
      SortPermutes(init);
      InsertPermutes(p[|p| - 1], SortByTemp(init));
    }
  }

  lemma {:induction false} InsertAtEnd(x: Point, p: SpeedProfile)
    requires SortedByTemp(p) && (|p| > 0 ==> p[|p| - 1].temp <= x.temp)
    ensures Insert(x, p) == p + [x]
    decreases |p|
  {
    if |p| > 0 {
      assert p[0].temp <= p[|p| - 1].temp;
      InsertAtEnd(x, p[1..]);
      assert [p[0]] + (p[1..] + [x]) == p + [x];
    }
  }

  /** Dropping the hottest point of a sorted profile leaves it sorted, and the
      dropped point is at least as hot as the rest. */
  lemma SortedInit(p: SpeedProfile)
    requires |p| > 0 && SortedByTemp(p)
    ensures SortedByTemp(p[..|p| - 1])
    ensures |p| > 1 ==> p[|p| - 2].temp <= p[|p| - 1].temp
  {
  }

  /** Sorting a sorted profile changes nothing. */
  lemma {:induction false} SortSorted(p: SpeedProfile)
    requires SortedByTemp(p)
    ensures SortByTemp(p) == p
    decreases |p|
  {
    if |p| > 0 {
      var init, x := p[..|p| - 1], p[|p| - 1];
      SortedInit(p);
      SortSorted(init);
      InsertAtEnd(x, init);
      assert init + [x] == p;
    }
  }

  /** The tail step of `normalizeProfile` on an already sorted profile: unless
      the hottest point is already at or above `critical` with duty 100, drop it
      when it sits exactly at `critical` or already has duty 100, and append
      `(critical, 100)`. */
  function CapLast(sorted: SpeedProfile, critical: int): (r: SpeedProfile)
    requires |sorted| >= 1
    ensures |r| >= 1 && r[|r| - 1].duty == 100 && r[|r| - 1].temp >= critical
    ensures |r| == |sorted| || |r| == |sorted| + 1
    ensures sorted[|sorted| - 1].temp >= critical && sorted[|sorted| - 1].duty == 100 ==> r == sorted
  {
    var last := sorted[|sorted| - 1];
    if last.temp < critical || last.duty != 100 then
      var kept := if last.temp == critical || last.duty == 100 then sorted[..|sorted| - 1] else sorted;
      var r := kept + [Point(critical, 100)];
      assert r[..|r| - 1] == kept;
      InitMultiset(sorted);
      r
    else
      InitMultiset(sorted);
      sorted
  }

  /** Every point of a profile without its last is a point of the profile. */
  lemma InitMultiset(s: SpeedProfile)
    requires |s| >= 1
    ensures multiset(s[..|s| - 1]) <= multiset(s)
  {
    assert s == s[..|s| - 1] + [s[|s| - 1]];
  }

  /** A hottest point below `critical` with duty 100, or exactly at `critical`
      without it, is replaced by `(critical, 100)`. */
  lemma CapLastReplaces(sorted: SpeedProfile, critical: int)
    requires |sorted| >= 1
    requires var last := sorted[|sorted| - 1];
      (last.temp < critical && last.duty == 100) || (last.temp == critical && last.duty != 100)
    ensures CapLast(sorted, critical) == sorted[..|sorted| - 1] + [Point(critical, 100)]
  {
  }

  /** Any other hottest point, neither at `critical` nor at duty 100, is kept,
      and `(critical, 100)` follows it. */
  lemma CapLastAppends(sorted: SpeedProfile, critical: int)
    requires |sorted| >= 1
    requires var last := sorted[|sorted| - 1]; last.temp != critical && last.duty != 100
    ensures CapLast(sorted, critical) == sorted + [Point(critical, 100)]
  {
  }

  /** `normalizeProfile(p, critical)`: sort by temperature, then cap the hottest
      point at `(critical, 100)`. Go reads `p[len(p)-1]`, so `p` must not be
      empty. */
  function Normalize(p: SpeedProfile, critical: int): (r: SpeedProfile)
    requires |p| >= 1
    ensures |r| >= 1 && r[|r| - 1].duty == 100 && r[|r| - 1].temp >= critical
    ensures |r| == |p| || |r| == |p| + 1
  {
    CapLast(SortByTemp(p), critical)
  }

  /** The three outcomes of `normalizeProfile`, read off the hottest point of
      the sorted profile: kept as is, replaced by `(critical, 100)`, or followed
      by it. */
  lemma NormalizeCases(p: SpeedProfile, critical: int)
    requires |p| >= 1
    ensures var s := SortByTemp(p); var last := s[|s| - 1]; var r := Normalize(p, critical);
      && (last.temp >= critical && last.duty == 100 ==> r == s)
      && ((last.temp < critical && last.duty == 100) || (last.temp == critical && last.duty != 100)
          ==> r == s[..|s| - 1] + [Point(critical, 100)])
      && (last.temp != critical && last.duty != 100 ==> r == s + [Point(critical, 100)])
  {
    var s := SortByTemp(p);
    var last := s[|s| - 1];
    if (last.temp < critical && last.duty == 100) || (last.temp == critical && last.duty != 100) {
      CapLastReplaces(s, critical);
    } else if last.temp != critical && last.duty != 100 {
      CapLastAppends(s, critical);
    }
  }

  /** Every point of the normalized profile but the cap comes from `p`. */
  lemma NormalizeKeepsPoints(p: SpeedProfile, critical: int)
    requires |p| >= 1
    ensures var r := Normalize(p, critical); multiset(r[..|r| - 1]) <= multiset(p)
  {
    var s := SortByTemp(p);
    assert Normalize(p, critical) == CapLast(s, critical);
    SortPermutes(p);
    CapLastKeepsPoints(s, p, critical);
  }

  /** Capping a permutation of `p` keeps, besides the cap, only points of `p`. */
  lemma CapLastKeepsPoints(sorted: SpeedProfile, p: SpeedProfile, critical: int)
    requires |sorted| >= 1 && multiset(sorted) == multiset(p)
    ensures var r := CapLast(sorted, critical); multiset(r[..|r| - 1]) <= multiset(p)
  {
    var last := sorted[|sorted| - 1];
    var r := CapLast(sorted, critical);
    InitMultiset(sorted);
    if last.temp < critical || last.duty != 100 {
      var kept := if last.temp == critical || last.duty == 100 then sorted[..|sorted| - 1] else sorted;
      assert r == kept + [Point(critical, 100)];
      assert r[..|r| - 1] == kept;
    }
  }

  /** A permutation of a profile that stays at or below `bound` stays there too. */
  lemma PermutationBound(a: SpeedProfile, b: SpeedProfile, bound: int)
    requires multiset(a) == multiset(b)
    requires forall i :: 0 <= i < |b| ==> b[i].temp <= bound
    ensures forall k :: 0 <= k < |a| ==> a[k].temp <= bound
  {
    forall k | 0 <= k < |a|
      ensures a[k].temp <= bound
    {
      assert a[k] in multiset(b);
      var i :| 0 <= i < |b| && b[i] == a[k];
    }
  }

  /** Capping a sorted profile that stays at or below `critical` keeps it sorted
      and ends it exactly at `(critical, 100)`. */
  lemma CapLastSorted(sorted: SpeedProfile, critical: int)
    requires |sorted| >= 1 && SortedByTemp(sorted)
    requires forall k :: 0 <= k < |sorted| ==> sorted[k].temp <= critical
    ensures SortedByTemp(CapLast(sorted, critical))
    ensures CapLast(sorted, critical)[|CapLast(sorted, critical)| - 1] == Point(critical, 100)
  {
    var r := CapLast(sorted, critical);
    var kept := r[..|r| - 1];
    assert r == kept + [r[|r| - 1]];
    assert forall i :: 0 <= i < |kept| ==> kept[i].temp <= critical;
  }

  /** When no point is hotter than `critical`, the normalized profile is sorted
      and ends exactly at `(critical, 100)`. */
  lemma NormalizeSorted(p: SpeedProfile, critical: int)
    requires |p| >= 1
    requires forall i :: 0 <= i < |p| ==> p[i].temp <= critical
    ensures SortedByTemp(Normalize(p, critical))
    ensures Normalize(p, critical)[|Normalize(p, critical)| - 1] == Point(critical, 100)
  {
    var sorted := SortByTemp(p);
    SortPermutes(p);
    PermutationBound(sorted, p, critical);
    CapLastSorted(sorted, critical);
  }

  /** Normalizing a profile whose normal form is sorted a second time changes
      nothing; with all temperatures at or below `critical` that is always the
      case. */
  lemma NormalizeIdempotent(p: SpeedProfile, critical: int)
    requires |p| >= 1
    requires SortedByTemp(Normalize(p, critical))
    ensures Normalize(Normalize(p, critical), critical) == Normalize(p, critical)
  {
    SortSorted(Normalize(p, critical));
  }

  /** Four points whose second is coolest, first next and last two in order
      sort with just the first two swapped. */
  lemma SortSwapFirstTwo(a: Point, b: Point, c: Point, d: Point)
    requires b.temp < a.temp <= c.temp <= d.temp
    ensures SortByTemp([a, b, c, d]) == [b, a, c, d]
  {
    assert [a, b, c, d][..3] == [a, b, c];
    assert [a, b, c][..2] == [a, b];
    assert [a, b][..1] == [a];
    assert [a][..0] == [];
    assert SortByTemp([a, b]) == [b, a];
    InsertAtEnd(c, [b, a]);
    assert SortByTemp([a, b, c]) == [b, a, c];
    InsertAtEnd(d, [b, a, c]);
    assert [b, a, c] + [d] == [b, a, c, d];
  }

  /** Four points whose last is replaced by `(critical, 100)`. */
  lemma CapLastReplacesFour(a: Point, b: Point, c: Point, d: Point, critical: int)
    requires (d.temp < critical && d.duty == 100) || (d.temp == critical && d.duty != 100)
    ensures CapLast([a, b, c, d], critical) == [a, b, c, Point(critical, 100)]
  {
    CapLastReplaces([a, b, c, d], critical);
    assert [a, b, c, d][..3] == [a, b, c];
  }

  // The shapes of the normalisation examples in the original's tests: four
  // points where only the first two are out of order (`35 25  20 25  50 55`
  // and a last point at 50 or 60), normalised at a critical temperature of 60.

  /** A final duty of 100 below `critical` is replaced by `(critical, 100)`. */
  lemma NormalizeReplacesFullDuty(a: Point, b: Point, c: Point, d: Point, critical: int)
    requires b.temp < a.temp <= c.temp <= d.temp < critical && d.duty == 100
    ensures Normalize([a, b, c, d], critical) == [b, a, c, Point(critical, 100)]
  {
    var s := [b, a, c, d];
    assert Normalize([a, b, c, d], critical) == CapLast(s, critical) by {
      SortSwapFirstTwo(a, b, c, d);
    }
    CapLastReplacesFour(b, a, c, d, critical);
  }

  /** A final point at `critical` is raised to duty 100. */
  lemma NormalizeRaisesCritical(a: Point, b: Point, c: Point, d: Point, critical: int)
    requires b.temp < a.temp <= c.temp <= d.temp == critical && d.duty != 100
    ensures Normalize([a, b, c, d], critical) == [b, a, c, Point(critical, 100)]
  {
    var s := [b, a, c, d];
    assert Normalize([a, b, c, d], critical) == CapLast(s, critical) by {
      SortSwapFirstTwo(a, b, c, d);
    }
    CapLastReplacesFour(b, a, c, d, critical);
  }

  /** Any other final point below `critical` is kept, and `(critical, 100)`
      follows it. */
  lemma NormalizeKeepsLast(a: Point, b: Point, c: Point, d: Point, critical: int)
    requires b.temp < a.temp <= c.temp <= d.temp < critical && d.duty != 100
    ensures Normalize([a, b, c, d], critical) == [b, a, c, d, Point(critical, 100)]
  {
    var s := [b, a, c, d];
    assert Normalize([a, b, c, d], critical) == CapLast(s, critical) by {
      SortSwapFirstTwo(a, b, c, d);
    }
  }

  /** A point hotter than `critical` without full duty is kept, and
      `(critical, 100)` is appended after it, out of order: the original does the
      same. */
  lemma NormalizeHotPointUnsorted()
    ensures Normalize([Point(70, 50)], 60) == [Point(70, 50), Point(60, 100)]
    ensures !SortedByTemp(Normalize([Point(70, 50)], 60))
  {
    assert SortByTemp([Point(70, 50)]) == [Point(70, 50)];
    CapLastAppends([Point(70, 50)], 60);
    var r := [Point(70, 50), Point(60, 100)];
    assert r[0].temp > r[1].temp;
  }
}

=== FILE: speedcmd.dfy ===
/** The `speed` command of cmd/speed.go: its argument check, and the loop that
    joins the profile tokens of the command line into the text `parseProfile`
    reads, one space inside each (temperature, duty) pair and two between
    pairs. */
module SpeedCommand {
  import opened Wrappers
  import opened Errors
  import opened Text
  import opened Profile

  /** The `Args` hook: a channel, then at least one profile token. */
  function CheckArgs(args: seq<string>): (r: Result<(), Error>)
    ensures r.Success? <==> |args| >= 2
    ensures |args| == 0 ==> r == Failure(MissingSpeedChannel)
    ensures |args| == 1 ==> r == Failure(MissingSpeedProfile)
  {
    if |args| < 1 then Failure(MissingSpeedChannel)
    else if |args| < 2 then Failure(MissingSpeedProfile)
    else Success(())
  }

  /** What the loop appends for the token at index `i`: the token and a space,
      and one more space after the second token of each pair. */
  function Piece(tokens: seq<string>, i: nat): string
    requires i < |tokens|
  {
    tokens[i] + " " + (if (i + 1) % 2 == 0 then " " else "")
  }

  /** What the loop appends from index `i` on. */
  function AccFrom(tokens: seq<string>, i: nat): string
    decreases |tokens| - i
  {
    if i >= |tokens| then "" else Piece(tokens, i) + AccFrom(tokens, i + 1)
  }

  /** The profile text: everything the loop appends, with the spaces at either
      end trimmed. */
  function JoinProfile(tokens: seq<string>): string {
    Trim(AccFrom(tokens, 0))
  }

  // ---------------------------------------------------------------------------
  // The reference: pairs of tokens, joined by a double space

  /** The tokens in pairs, each pair written with one space; an odd last token
      stands alone. */
  function Segments(tokens: seq<string>): (r: seq<string>)
    ensures 2 * |r| == |tokens| || 2 * |r| == |tokens| + 1
    decreases |tokens|
  {
    if |tokens| == 0 then []
    else if |tokens| == 1 then [tokens[0]]
    else [tokens[0] + " " + tokens[1]] + Segments(tokens[2..])
  }

  /** Non-empty tokens without spaces, as the command line delivers them. */
  predicate Words(tokens: seq<string>) {
    forall i :: 0 <= i < |tokens| ==> |tokens[i]| > 0 && ' ' !in tokens[i]
  }

  /** The spaces left at the end of the loop's output: one after an odd count,
      two after an even one. */
  function Trailing(n: nat): string {
    if n == 0 then "" else if n % 2 == 1 then " " else "  "
  }

  lemma AllSpacesTrailing(n: nat)
    ensures AllSpaces(Trailing(n))
  {
  }

  /** From an even index on, the loop appends the segments joined by double
      spaces, followed by the trailing pad. */
  lemma {:induction false} AccSegments(tokens: seq<string>, i: nat)
    requires i <= |tokens| && i % 2 == 0
    ensures AccFrom(tokens, i) == Join(Segments(tokens[i..]), "  ") + Trailing(|tokens| - i)
    decreases |tokens| - i
  {
    if |tokens| - i == 1 {
      assert tokens[i..] == [tokens[i]];
      assert AccFrom(tokens, i + 1) == "";
    } else if |tokens| - i >= 2 {
      AccSegments(tokens, i + 2);
      AccSegmentsStep(tokens, i);
    }
  }

  /** One step of the induction: a pair in front of what the loop appends from
      the next even index. */
  lemma AccSegmentsStep(tokens: seq<string>, i: nat)
    requires i + 1 < |tokens| && i % 2 == 0
    requires AccFrom(tokens, i + 2) == Join(Segments(tokens[i + 2..]), "  ") + Trailing(|tokens| - (i + 2))
    ensures AccFrom(tokens, i) == Join(Segments(tokens[i..]), "  ") + Trailing(|tokens| - i)
  {
    var seg := tokens[i] + " " + tokens[i + 1];
    var tail := Segments(tokens[i + 2..]);
    AccPair(tokens, i);
    SegmentsPair(tokens, i);
    if |tokens| - i == 2 {
      assert tail == [];
    } else {
      JoinCons(seg, tail, "  ");
      TrailingStep(|tokens| - i);
    }
  }

  /** Two tokens more leave the same trailing spaces. */
  lemma TrailingStep(n: nat)
    requires n > 2
    ensures Trailing(n) == Trailing(n - 2)
  {
    assert (n - 2) % 2 == n % 2;
  }

  /** A pair of tokens from an even index: the loop appends the pair, one space
      inside and two after. */
  lemma AccPair(tokens: seq<string>, i: nat)
    requires i + 1 < |tokens| && i % 2 == 0
    ensures AccFrom(tokens, i) == (tokens[i] + " " + tokens[i + 1]) + "  " + AccFrom(tokens, i + 2)
  {
    assert AccFrom(tokens, i) == tokens[i] + " " + (tokens[i + 1] + "  ") + AccFrom(tokens, i + 2);
  }

  lemma SegmentsPair(tokens: seq<string>, i: nat)
    requires i + 1 < |tokens|
    ensures Segments(tokens[i..]) == [tokens[i] + " " + tokens[i + 1]] + Segments(tokens[i + 2..])
  {
    assert tokens[i..][2..] == tokens[i + 2..];
  }

  /** The joined segments begin with the first token and end with the last. */
  lemma {:induction false} SegmentsBorder(tokens: seq<string>)
    requires |tokens| >= 1 && Words(tokens)
    ensures var s := Join(Segments(tokens), "  ");
      |s| > 0 && s[0] == tokens[0][0] && s[|s| - 1] == tokens[|tokens| - 1][|tokens[|tokens| - 1]| - 1]
    decreases |tokens|
  {
    if |tokens| >= 3 {
      var seg := tokens[0] + " " + tokens[1];
      var rest := tokens[2..];
      assert Words(rest) by {
        assert forall i :: 0 <= i < |rest| ==> rest[i] == tokens[i + 2];
      }
      SegmentsBorder(rest);
      assert Join(Segments(tokens), "  ") == seg + "  " + Join(Segments(rest), "  ") by {
        assert ([seg] + Segments(rest))[1..] == Segments(rest);
      }
      assert rest[|rest| - 1] == tokens[|tokens| - 1];
    } else if |tokens| == 2 {
      assert Segments(tokens) == [tokens[0] + " " + tokens[1]];
    }
  }

  /** The whole loop appends the joined segments, then the pad. */
  lemma AccJoined(tokens: seq<string>)
    ensures AccFrom(tokens, 0) == Join(Segments(tokens), "  ") + Trailing(|tokens|)
  {
    AccSegments(tokens, 0);
    assert tokens[0..] == tokens;
  }

  /** Joined words neither begin nor end with a space. */
  lemma JoinedBorder(tokens: seq<string>)
    requires Words(tokens)
    ensures var s := Join(Segments(tokens), "  ");
      |s| > 0 ==> s[0] != ' ' && s[|s| - 1] != ' '
  {
    if |tokens| > 0 {
      SegmentsBorder(tokens);
      var first, last := tokens[0], tokens[|tokens| - 1];
      assert first[0] in first && last[|last| - 1] in last;
    }
  }

  /** For words, the loop's text is the pairs joined by double spaces: one space
      inside each pair, two between pairs, none at either end. */
  lemma JoinProfileSegments(tokens: seq<string>)
    requires Words(tokens)
    ensures JoinProfile(tokens) == Join(Segments(tokens), "  ")
  {
    AccJoined(tokens);
    JoinedBorder(tokens);
    AllSpacesTrailing(|tokens|);
    TrimPadded(Join(Segments(tokens), "  "), Trailing(|tokens|));
  }

  // ---------------------------------------------------------------------------
  // Round trip through parseProfile

  /** Segment `k` is the pair of tokens `2k` and `2k + 1`, or the odd last token. */
  lemma {:induction false} SegmentsAt(tokens: seq<string>)
    ensures forall k :: 0 <= k && 2 * k + 1 < |tokens| ==> Segments(tokens)[k] == tokens[2 * k] + " " + tokens[2 * k + 1]
    ensures var segs := Segments(tokens);
      2 * |segs| == |tokens| + 1 ==> segs[|segs| - 1] == tokens[|tokens| - 1]
    decreases |tokens|
  {
    if |tokens| >= 2 {
      var rest := tokens[2..];
      var segs, tail := Segments(tokens), Segments(rest);
      SegmentsAt(rest);
      assert segs == [tokens[0] + " " + tokens[1]] + tail;
      forall k | 1 <= k && 2 * k + 1 < |tokens|
        ensures segs[k] == tokens[2 * k] + " " + tokens[2 * k + 1]
      {
        assert segs[k] == tail[k - 1];
        assert rest[2 * (k - 1)] == tokens[2 * k] && rest[2 * (k - 1) + 1] == tokens[2 * k + 1];
      }
      if 2 * |segs| == |tokens| + 1 {
        assert segs[|segs| - 1] == tail[|tail| - 1];
        assert rest[|rest| - 1] == tokens[|tokens| - 1];
      }
    }
  }

  /** Tokens that all parse as integers. */
  predicate Integers(tokens: seq<string>) {
    forall i :: 0 <= i < |tokens| ==> Atoi(tokens[i]).Success?
  }

  lemma IntegersAreWords(tokens: seq<string>)
    requires Integers(tokens)
    ensures Words(tokens)
  {
    forall i | 0 <= i < |tokens|
      ensures |tokens[i]| > 0 && ' ' !in tokens[i]
    {
      assert Atoi(tokens[i]).Success?;
    }
  }

  /** Every segment but the last ends before a double space, and the last holds
      none. */
  lemma SegmentsSeparated(tokens: seq<string>)
    requires |tokens| >= 1 && Integers(tokens)
    ensures Separable(Segments(tokens), "  ")
  {
    SegmentsAt(tokens);
    var segs := Segments(tokens);
    forall k | 0 <= k && 2 * k + 1 < |tokens|
      ensures EndsBeforeSep(segs[k], "  ") && IndexOf(segs[k], "  ").None?
    {
      assert Atoi(tokens[2 * k]).Success? && Atoi(tokens[2 * k + 1]).Success?;
      SpacedPair(tokens[2 * k], tokens[2 * k + 1]);
    }
    if 2 * |segs| == |tokens| + 1 {
      assert Atoi(tokens[|tokens| - 1]).Success?;
      SeparatorFree(tokens[|tokens| - 1], "  ");
    }
  }

  /** Segments of integer tokens, joined by double spaces, split back apart. */
  lemma SplitSegments(tokens: seq<string>)
    requires |tokens| >= 1 && Integers(tokens)
    ensures Split(Join(Segments(tokens), "  "), "  ") == Segments(tokens)
  {
    SegmentsSeparated(tokens);
    SplitJoin(Segments(tokens), "  ");
  }

  /** The joined text of integer tokens splits back into its segments. */
  lemma SplitJoinedProfile(tokens: seq<string>)
    requires |tokens| >= 1 && Integers(tokens)
    ensures Split(JoinProfile(tokens), "  ") == Segments(tokens)
  {
    IntegersAreWords(tokens);
    JoinProfileSegments(tokens);
    SplitSegments(tokens);
  }

  /** Each pair segment of integer tokens parses to the pair's point. */
  lemma ParsePairSegments(tokens: seq<string>)
    requires Integers(tokens)
    ensures forall k :: 0 <= k && 2 * k + 1 < |tokens| ==>
      ParsePoint(Segments(tokens)[k]) == Success(Point(Atoi(tokens[2 * k]).value, Atoi(tokens[2 * k + 1]).value))
  {
    SegmentsAt(tokens);
    forall k | 0 <= k && 2 * k + 1 < |tokens|
      ensures ParsePoint(Segments(tokens)[k]) == Success(Point(Atoi(tokens[2 * k]).value, Atoi(tokens[2 * k + 1]).value))
    {
      assert Atoi(tokens[2 * k]).Success? && Atoi(tokens[2 * k + 1]).Success?;
      ParsePointPair(tokens[2 * k], tokens[2 * k + 1]);
    }
  }

  /** An even number of integer tokens parses to their consecutive pairs. */
  lemma ParseJoinedPairs(tokens: seq<string>)
    requires |tokens| >= 2 && |tokens| % 2 == 0 && Integers(tokens)
    ensures ParseProfile(JoinProfile(tokens)).Success?
    ensures var points := ParseProfile(JoinProfile(tokens)).value;
      && 2 * |points| == |tokens|
      && forall k :: 0 <= k < |points| ==> points[k] == Point(Atoi(tokens[2 * k]).value, Atoi(tokens[2 * k + 1]).value)
  {
    SplitJoinedProfile(tokens);
    assert ParseProfile(JoinProfile(tokens)) == ParseSegments(Segments(tokens));
    ParseEvenSegments(tokens);
  }

  lemma ParseEvenSegments(tokens: seq<string>)
    requires |tokens| % 2 == 0 && Integers(tokens)
    ensures ParseSegments(Segments(tokens)).Success?
    ensures var points := ParseSegments(Segments(tokens)).value;
      && 2 * |points| == |tokens|
      && forall k :: 0 <= k < |points| ==> points[k] == Point(Atoi(tokens[2 * k]).value, Atoi(tokens[2 * k + 1]).value)
  {
    var segs := Segments(tokens);
    assert 2 * |segs| == |tokens|;
    ParsePairSegments(tokens);
    forall j | 0 <= j < |segs|
      ensures ParsePoint(segs[j]) == Success(Point(Atoi(tokens[2 * j]).value, Atoi(tokens[2 * j + 1]).value))
    {
      assert 2 * j + 1 < |tokens|;
    }
    assert AllParse(segs);
  }

  /** An odd number of integer tokens leaves the last one without a duty, and
      parsing fails on it. */
  lemma ParseJoinedOdd(tokens: seq<string>)
    requires |tokens| >= 1 && |tokens| % 2 == 1 && Integers(tokens)
    ensures ParseProfile(JoinProfile(tokens)) == Failure(InvalidProfileSyntax(tokens[|tokens| - 1]))
  {
    SplitJoinedProfile(tokens);
    ParseOddSegments(tokens);
  }

  lemma ParseOddSegments(tokens: seq<string>)
    requires |tokens| >= 1 && |tokens| % 2 == 1 && Integers(tokens)
    ensures ParseSegments(Segments(tokens)) == Failure(InvalidProfileSyntax(tokens[|tokens| - 1]))
  {
    var segs := Segments(tokens);
    OddPrefixParses(tokens);
    OddLastFails(tokens);
    ParseSegmentsFirstBad(segs, |segs| - 1);
  }

  /** With an odd count, every segment before the last is a pair that parses. */
  lemma OddPrefixParses(tokens: seq<string>)
    requires |tokens| >= 1 && |tokens| % 2 == 1 && Integers(tokens)
    ensures var segs := Segments(tokens);
      forall j :: 0 <= j < |segs| - 1 ==> ParsePoint(segs[j]).Success?
  {
    var segs := Segments(tokens);
    assert 2 * |segs| == |tokens| + 1;
    ParsePairSegments(tokens);
    forall j | 0 <= j < |segs| - 1
      ensures ParsePoint(segs[j]).Success?
    {
      assert 2 * j + 1 < |tokens|;
    }
  }

  /** With an odd count, the last segment is the lone last token, which fails. */
  lemma OddLastFails(tokens: seq<string>)
    requires |tokens| >= 1 && |tokens| % 2 == 1 && Integers(tokens)
    ensures var segs := Segments(tokens);
      ParsePoint(segs[|segs| - 1]) == Failure(InvalidProfileSyntax(tokens[|tokens| - 1]))
  {
    var t := tokens[|tokens| - 1];
    SegmentsOddLast(tokens);
    assert Atoi(t).Success?;
    ParsePointSingle(t);
  }

  /** With an odd count, the last segment is the last token. */
  lemma SegmentsOddLast(tokens: seq<string>)
    requires |tokens| % 2 == 1
    ensures var segs := Segments(tokens);
      |segs| >= 1 && segs[|segs| - 1] == tokens[|tokens| - 1]
  {
    var segs := Segments(tokens);
    OddHalf(|tokens|, |segs|);
    SegmentsAt(tokens);
  }

  /** A length `m` with `2 * m` equal to an odd `n` or to `n + 1` is the latter. */
  lemma OddHalf(n: nat, m: nat)
    requires n % 2 == 1 && (2 * m == n || 2 * m == n + 1)
    ensures 2 * m == n + 1
  {
  }

  // ---------------------------------------------------------------------------
  // The command

  datatype SpeedRequest = SpeedRequest(channel: string, profile: string)

  /** `speed <channel> <tokens...>`: the argument check, then the join loop of
      `Run` over the tokens after the channel. */
  method Speed(args: seq<string>) returns (r: Result<SpeedRequest, Error>)
    ensures r.Failure? <==> |args| < 2
    ensures r.Failure? ==> r.error == CheckArgs(args).error
    ensures r.Success? ==> r.value.channel == args[0] && r.value.profile == JoinProfile(args[1..])
    ensures r.Success? && Words(args[1..]) ==> r.value.profile == Join(Segments(args[1..]), "  ")
  {
    var check := CheckArgs(args);
    if check.Failure? {
      return Failure(check.error);
    }
    var profile := JoinTokens(args[1..]);
    return Success(SpeedRequest(args[0], profile));
  }

  /** The join loop of `Run`: each token and a space, one more space after every
      second token, and the spaces at either end trimmed. */
  method JoinTokens(tokens: seq<string>) returns (profile: string)
    ensures profile == JoinProfile(tokens)
    ensures Words(tokens) ==> profile == Join(Segments(tokens), "  ")
  {
    profile := "";
    var i := 0;
    while i < |tokens|
      invariant 0 <= i <= |tokens|
      invariant profile + AccFrom(tokens, i) == AccFrom(tokens, 0)
    {
      AccLoopStep(profile, tokens, i);
      profile := profile + (tokens[i] + " ");
      if (i + 1) % 2 == 0 {
        profile := profile + " ";
      }
      i := i + 1;
    }
    assert profile == AccFrom(tokens, 0) by {
      assert AccFrom(tokens, i) == "";
      assert profile + "" == profile;
    }
    profile := Trim(profile);
    if Words(tokens) {
      JoinProfileSegments(tokens);
    }
  }

  /** The loop body keeps what is appended so far and what is still to come
      adding up to the whole. */
  lemma AccLoopStep(profile: string, tokens: seq<string>, i: nat)
    requires i < |tokens| && profile + AccFrom(tokens, i) == AccFrom(tokens, 0)
    ensures (i + 1) % 2 == 0 ==> profile + (tokens[i] + " ") + " " + AccFrom(tokens, i + 1) == AccFrom(tokens, 0)
    ensures (i + 1) % 2 != 0 ==> profile + (tokens[i] + " ") + AccFrom(tokens, i + 1) == AccFrom(tokens, 0)
  {
    assert AccFrom(tokens, i) == Piece(tokens, i) + AccFrom(tokens, i + 1);
  }

  /** The usage text's own example, `speed pump 20 25 35 25 50 55 60 100`, reads
      as the four points of that profile. */
  lemma SpeedExample(tokens: seq<string>)
    requires tokens == ["20", "25", "35", "25", "50", "55", "60", "100"]
    ensures ParseProfile(JoinProfile(tokens)) == Success([Point(20, 25), Point(35, 25), Point(50, 55), Point(60, 100)])
  {
    var values := [20, 25, 35, 25, 50, 55, 60, 100];
    forall i | 0 <= i < |tokens|
      ensures Atoi(tokens[i]) == Success(values[i])
    {
      if i < 7 {
        AtoiTwoDigits(tokens[i]);
      } else {
        AtoiHundred(tokens[i]);
      }
    }
    ParseReadings(tokens, values);
    ExamplePairs(values);
  }

  lemma ExamplePairs(values: seq<int>)
    requires values == [20, 25, 35, 25, 50, 55, 60, 100]
    ensures PairUp(values) == [Point(20, 25), Point(35, 25), Point(50, 55), Point(60, 100)]
  {
    var pairs := PairUp(values);
    assert pairs[0] == Point(20, 25) && pairs[1] == Point(35, 25);
    assert pairs[2] == Point(50, 55) && pairs[3] == Point(60, 100);
  }

  /** Integers taken two at a time as (temperature, duty) points. */
  function PairUp(values: seq<int>): (r: seq<Point>)
    requires |values| % 2 == 0
    ensures 2 * |r| == |values|
    ensures forall k :: 0 <= k < |r| ==> r[k] == Point(values[2 * k], values[2 * k + 1])
    decreases |values|
  {
    if |values| == 0 then []
    else
      var rest := PairUp(values[2..]);
      assert forall k :: 0 <= k < |rest| ==> values[2..][2 * k] == values[2 * (k + 1)];
      [Point(values[0], values[1])] + rest
  }

  /** Tokens that read as the given integers, an even number of them, parse to
      the integers paired up. */
  lemma ParseReadings(tokens: seq<string>, values: seq<int>)
    requires |tokens| == |values| >= 2 && |values| % 2 == 0
    requires forall i :: 0 <= i < |tokens| ==> Atoi(tokens[i]) == Success(values[i])
    ensures ParseProfile(JoinProfile(tokens)) == Success(PairUp(values))
  {
    assert Integers(tokens);
    ParseJoinedPairs(tokens);
    ReadPairs(tokens, values, ParseProfile(JoinProfile(tokens)).value);
  }

  /** Points read pairwise from tokens whose values are known are those values
      in pairs. */
  lemma ReadPairs(tokens: seq<string>, values: seq<int>, points: seq<Point>)
    requires |tokens| == |values| && |values| % 2 == 0 && 2 * |points| == |tokens|
    requires forall i :: 0 <= i < |tokens| ==> Atoi(tokens[i]) == Success(values[i])
    requires forall k :: 0 <= k < |points| ==> points[k] == Point(Atoi(tokens[2 * k]).value, Atoi(tokens[2 * k + 1]).value)
    ensures points == PairUp(values)
  {
    var pairs := PairUp(values);
    forall k | 0 <= k < |points|
      ensures points[k] == pairs[k]
    {
      assert Atoi(tokens[2 * k]).value == values[2 * k];
      assert Atoi(tokens[2 * k + 1]).value == values[2 * k + 1];
    }
  }

  lemma AtoiTwoDigits(s: string)
    requires |s| == 2 && IsDigit(s[0]) && IsDigit(s[1])
    ensures Atoi(s) == Success(10 * DigitValue(s[0]) + DigitValue(s[1]))
  {
    DigitsValueTwo(s);
    AtoiDigits(s);
  }

  lemma AtoiHundred(s: string)
    requires s == "100"
    ensures Atoi(s) == Success(100)
  {
    DigitsValueTwo(s[..2]);
    AtoiDigits(s);
  }
}

=== FILE: status.dfy ===
/** The status report of `GetStatus`: the cooler answers a read with a packet
    whose bytes 1 and 2 are the liquid temperature's whole and fractional part,
    bytes 3-4 and 5-6 the fan and pump speeds (high byte first), and bytes 11-14
    the firmware version, whose middle number takes two bytes. */
module Status {
  import opened Wrappers
  import opened Errors
  import opened Bits
  import opened Text

  datatype Status = Status(temperature: string, fanSpeed: nat, pumpSpeed: nat, firmware: string)

  /** The report reads up to byte `0xe`. */
  const StatusLength: nat := 15

  /** `uint64(hi)<<8 | uint64(lo)`: the two bytes as one big-endian number. */
  function Word(hi: byte, lo: byte): (w: nat)
    ensures w == 256 * hi + lo
  {
    assert Pow2(8) == 256;
    OrDisjointIsSum(hi, lo, 8);
    Or(Shl(hi, 8), lo)
  }

  /** The high and the low byte of a 16-bit number: together `Word`'s inverse. */
  function High(w: nat): byte
    requires w < 65536
  {
    w / 256
  }

  function Low(w: nat): byte {
    w % 256
  }

  lemma WordRoundTrip(hi: byte, lo: byte)
    ensures Word(hi, lo) < 65536
    ensures High(Word(hi, lo)) == hi && Low(Word(hi, lo)) == lo
  {
  }

  lemma WordBytesRoundTrip(w: nat)
    requires w < 65536
    ensures Word(High(w), Low(w)) == w
  {
  }

  /** `GetStatus` before it prints. The original reads a full 64-byte packet,
      so a shorter one never reaches it; here it is refused. */
  function DecodeStatus(msg: seq<byte>): (r: Result<Status, Error>)
    ensures r.Failure? <==> |msg| < StatusLength
    ensures r.Failure? ==> r.error == ShortPacket(|msg|)
  {
    if |msg| < StatusLength then Failure(ShortPacket(|msg|))
    else
      Success(Status(
        Dotted([msg[1], msg[2]]),
        Word(msg[3], msg[4]),
        Word(msg[5], msg[6]),
        Dotted([msg[0xb], Word(msg[0xc], msg[0xd]), msg[0xe]])))
  }

  const Dot: string := "."

  /** The decimal forms of the numbers. */
  function Itoas(ns: seq<nat>): (r: seq<string>)
    ensures |r| == |ns| && forall i :: 0 <= i < |ns| ==> r[i] == Itoa(ns[i])
  {
    seq(|ns|, i requires 0 <= i < |ns| => Itoa(ns[i]))
  }

  /** `fmt.Sprintf("%d.%d", ...)` and its three-number form: the numbers in
      decimal with dots between them. */
  function Dotted(ns: seq<nat>): string {
    Join(Itoas(ns), Dot)
  }

  /** The bytes of a packet that the report shows, in packet order. */
  function Fields(msg: seq<byte>): seq<nat>
    requires |msg| >= StatusLength
  {
    [msg[1], msg[2], msg[3], msg[4], msg[5], msg[6], msg[0xb], msg[0xc], msg[0xd], msg[0xe]]
  }

  /** Each part read as a decimal number below `bound`, or nothing if one is not. */
  function ParseBelow(parts: seq<string>, bound: nat): (r: Option<seq<nat>>)
    ensures r.Some? ==> |r.value| == |parts|
    ensures r.Some? ==> forall i :: 0 <= i < |parts| ==> r.value[i] < bound
  {
    if |parts| == 0 then Some([])
    else
      var head := Atoi(parts[0]);
      if head.Failure? || !(0 <= head.value < bound) then None
      else
        match ParseBelow(parts[1..], bound)
        case None => None
        case Some(rest) => Some([head.value as nat] + rest)
  }

  /** Reads a report back into the packet fields it came from: splits the two
      dotted strings and parses each number, and cuts each 16-bit number into its
      bytes. */
  function ReadBack(s: Status): (r: Option<seq<nat>>)
  {
    ReadBackParts(Split(s.temperature, Dot), s.fanSpeed, s.pumpSpeed, Split(s.firmware, Dot))
  }

  /** `ReadBack` once the dotted strings are cut into their numbers. */
  function ReadBackParts(temperature: seq<string>, fanSpeed: nat, pumpSpeed: nat, firmware: seq<string>): (r: Option<seq<nat>>)
    ensures r.Some? ==> |r.value| == 10
  {
    var t := ParseBelow(temperature, 256);
    var f := ParseBelow(firmware, 65536);
    if t.None? || f.None? || |t.value| != 2 || |f.value| != 3 then None
    else if fanSpeed >= 65536 || pumpSpeed >= 65536 || f.value[0] >= 256 || f.value[2] >= 256 then None
    else
      var minor := f.value[1];
      Some([t.value[0], t.value[1], High(fanSpeed), Low(fanSpeed), High(pumpSpeed), Low(pumpSpeed),
            f.value[0], High(minor), Low(minor), f.value[2]])
  }

  lemma JoinTwo(x: string, y: string)
    ensures Join([x, y], Dot) == x + "." + y
  {
    assert [x, y][1..] == [y];
  }

  lemma JoinThree(x: string, y: string, z: string)
    ensures Join([x, y, z], Dot) == x + "." + y + "." + z
  {
    assert [x, y, z][1..] == [y, z];
    JoinTwo(y, z);
    assert x + "." + (y + "." + z) == x + "." + y + "." + z;
  }

  /** The two-number form is `"%d.%d"`. */
  lemma DottedTwo(a: nat, b: nat)
    ensures Dotted([a, b]) == Itoa(a) + "." + Itoa(b)
  {
    assert Itoas([a, b]) == [Itoa(a), Itoa(b)];
    JoinTwo(Itoa(a), Itoa(b));
  }

  /** The three-number form is `"%d.%d.%d"`. */
  lemma DottedThree(a: nat, b: nat, c: nat)
    ensures Dotted([a, b, c]) == Itoa(a) + "." + Itoa(b) + "." + Itoa(c)
  {
    assert Itoas([a, b, c]) == [Itoa(a), Itoa(b), Itoa(c)];
    JoinThree(Itoa(a), Itoa(b), Itoa(c));
  }

  /** A decimal number holds no dot. */
  lemma DotFree(n: nat)
    ensures IndexOf(Itoa(n), Dot).None?
    ensures EndsBeforeSep(Itoa(n), Dot)
  {
    var s := Itoa(n);
    assert forall i :: 0 <= i < |s| ==> IsDigit(s[i]);
    SeparatorFree(s, Dot);
  }

  /** A dotted string splits back into the decimal forms it joined. */
  lemma SplitDotted(ns: seq<nat>)
    requires |ns| >= 1
    ensures Split(Dotted(ns), Dot) == Itoas(ns)
  {
    var parts := Itoas(ns);
    forall i | 0 <= i < |ns|
      ensures EndsBeforeSep(parts[i], Dot) && IndexOf(parts[i], Dot).None?
    {
      DotFree(ns[i]);
    }
    SplitJoin(parts, Dot);
  }

  /** Decimal numbers below `bound` read back as themselves. */
  lemma {:induction false} ParseItoas(ns: seq<nat>, bound: nat)
    requires bound <= MaxInt64
    requires forall i :: 0 <= i < |ns| ==> ns[i] < bound
    ensures ParseBelow(Itoas(ns), bound) == Some(ns)
    decreases |ns|
  {
    if |ns| > 0 {
      AtoiItoa(ns[0]);
      assert Itoas(ns)[1..] == Itoas(ns[1..]);
      ParseItoas(ns[1..], bound);
      assert [ns[0]] + ns[1..] == ns;
    }
  }

  /** A report built from numbers in range reads back as those numbers, each
      16-bit one cut into its bytes. */
  lemma ReadBackNumbers(t: seq<nat>, fan: nat, pump: nat, v: seq<nat>)
    requires |t| == 2 && t[0] < 256 && t[1] < 256
    requires |v| == 3 && v[0] < 256 && v[1] < 65536 && v[2] < 256
    requires fan < 65536 && pump < 65536
    ensures ReadBack(Status(Dotted(t), fan, pump, Dotted(v)))
         == Some([t[0], t[1], High(fan), Low(fan), High(pump), Low(pump), v[0], High(v[1]), Low(v[1]), v[2]])
  {
    SplitDotted(t);
    SplitDotted(v);
    ReadBackPartsNumbers(t, fan, pump, v);
  }

  lemma ReadBackPartsNumbers(t: seq<nat>, fan: nat, pump: nat, v: seq<nat>)
    requires |t| == 2 && t[0] < 256 && t[1] < 256
    requires |v| == 3 && v[0] < 256 && v[1] < 65536 && v[2] < 256
    requires fan < 65536 && pump < 65536
    ensures ReadBackParts(Itoas(t), fan, pump, Itoas(v))
         == Some([t[0], t[1], High(fan), Low(fan), High(pump), Low(pump), v[0], High(v[1]), Low(v[1]), v[2]])
  {
    ParseItoas(t, 256);
    ParseItoas(v, 65536);
  }

  /** The report loses none of the bytes it reads: reading it back gives them. */
  lemma ReadBackDecode(msg: seq<byte>)
    requires |msg| >= StatusLength
    ensures ReadBack(DecodeStatus(msg).value) == Some(Fields(msg))
  {
    var fan, pump, minor := Word(msg[3], msg[4]), Word(msg[5], msg[6]), Word(msg[0xc], msg[0xd]);
    WordRoundTrip(msg[3], msg[4]);
    WordRoundTrip(msg[5], msg[6]);
    WordRoundTrip(msg[0xc], msg[0xd]);
    ReadBackNumbers([msg[1], msg[2]], fan, pump, [msg[0xb], minor, msg[0xe]]);
  }

  /** Two packets give the same report exactly when they agree on the bytes it
      reads: every other byte is ignored, and no two readings look alike. */
  lemma DecodeStatusInjective(m1: seq<byte>, m2: seq<byte>)
    requires |m1| >= StatusLength && |m2| >= StatusLength
    ensures DecodeStatus(m1) == DecodeStatus(m2) <==> Fields(m1) == Fields(m2)
  {
    if DecodeStatus(m1) == DecodeStatus(m2) {
      ReadBackDecode(m1);
      ReadBackDecode(m2);
    }
  }

  /** The report in `fmt`'s terms: `"%d.%d"` of bytes 1 and 2, the two speeds,
      and `"%d.%d.%d"` of byte 11, the word of bytes 12-13, and byte 14. */
  lemma DecodeStatusFormat(msg: seq<byte>)
    requires |msg| >= StatusLength
    ensures DecodeStatus(msg) == Success(Status(
              Itoa(msg[1]) + "." + Itoa(msg[2]),
              256 * (msg[3] as int) + msg[4] as int,
              256 * (msg[5] as int) + msg[6] as int,
              Itoa(msg[0xb]) + "." + Itoa(256 * (msg[0xc] as int) + msg[0xd] as int) + "." + Itoa(msg[0xe])))
  {
    DottedTwo(msg[1], msg[2]);
    DottedThree(msg[0xb], Word(msg[0xc], msg[0xd]), msg[0xe]);
  }

  /** The decimal forms the example below prints. */
  lemma ExampleDecimals(a: nat, b: nat, c: nat, d: nat)
    requires a == 25 && b == 4 && c == 1 && d == 258
    ensures Itoa(a) == "25" && Itoa(b) == "4" && Itoa(c) == "1" && Itoa(d) == "258"
  {
    assert Itoa(a / 10) == Itoa(2);
    assert Itoa(d / 10) == Itoa(25);
    assert Itoa(25) == "25";
  }

  /** A liquid at 25.4 degrees, the fan at 600 rpm, the pump at 300 rpm and
      firmware 4.258.1. */
  lemma DecodeStatusExample(msg: seq<byte>)
    requires |msg| == 64
    requires msg[1] == 25 && msg[2] == 4 && msg[3] == 2 && msg[4] == 88 && msg[5] == 1 && msg[6] == 44
    requires msg[0xb] == 4 && msg[0xc] == 1 && msg[0xd] == 2 && msg[0xe] == 1
    ensures DecodeStatus(msg) == Success(Status("25.4", 600, 300, "4.258.1"))
  {
    DecodeStatusFormat(msg);
    ExampleDecimals(msg[1], msg[2], msg[0xe], 256 * (msg[0xc] as int) + msg[0xd] as int);
    ExampleStrings();
  }

  /** The two dotted strings of the example, spelled out from their parts. */
  lemma ExampleStrings()
    ensures "25" + "." + "4" == "25.4"
    ensures "4" + "." + "258" + "." + "1" == "4.258.1"
  {
  }
}

=== FILE: steps.dfy ===
/** `generateSteps` (driver/util.go): a palette and a mode's colour limits become
    the sequence of LED frames ("steps") sent to the device. */
module Steps {
  import opened Wrappers
  import opened Errors
  import opened Text
  import opened Palette
  import Catalog

  /** The larger of 1 and `n`: the most colours a mode can keep. */
  function AtLeastOne(n: nat): nat {
    if n == 0 then 1 else n
  }

  /** The palette a mode keeps: the placeholder when the mode takes no colours or
      none were given, otherwise the given colours cut to the mode's maximum. */
  function Retain(colors: seq<Rgba>, maxColors: nat): (kept: seq<Rgba>)
    ensures 1 <= |kept| <= AtLeastOne(maxColors)
    ensures maxColors == 0 || |colors| == 0 ==> kept == [Placeholder]
    ensures maxColors > 0 && |colors| > 0 ==> |kept| == (if |colors| < maxColors then |colors| else maxColors)
    ensures maxColors > 0 && |colors| > 0 ==> kept == colors[..|kept|]
  {
    if maxColors == 0 then [Placeholder]
    else if |colors| > maxColors then colors[..maxColors]
    else if |colors| == 0 then [Placeholder]
    else colors
  }

  /** One LED frame in which every LED shows `c`. */
  function Uniform(c: Rgba): (step: seq<Rgba>)
    ensures |step| == Catalog.TotalLEDs
    ensures forall j :: 0 <= j < |step| ==> step[j] == c
  {
    seq(Catalog.TotalLEDs, _ => c)
  }

  predicate IsSuper(mode: string) {
    Contains(mode, "super")
  }

  /** `generateSteps`. Too few colours is fatal in the original and a failure
      here. Ordinary modes get one uniform frame per kept colour; "super" modes
      get the kept palette as a single frame, one colour per LED, and ring-only
      "super" modes first get a one-colour placeholder frame for the logo. */
  function GenerateSteps(colors: seq<Rgba>, minColors: nat, maxColors: nat, mode: string, ringOnly: bool)
    : (r: Result<seq<seq<Rgba>>, Error>)
    ensures r.Failure? <==> |colors| < minColors
    ensures r.Failure? ==> r.error == InsufficientColors(mode, minColors)
    ensures r.Success? && !IsSuper(mode) ==>
      |r.value| == |Retain(colors, maxColors)|
      && forall i :: 0 <= i < |r.value| ==> r.value[i] == Uniform(Retain(colors, maxColors)[i])
    ensures r.Success? && IsSuper(mode) && ringOnly ==> r.value == [[Placeholder], Retain(colors, maxColors)]
    ensures r.Success? && IsSuper(mode) && !ringOnly ==> r.value == [Retain(colors, maxColors)]
  {
    if |colors| < minColors then Failure(InsufficientColors(mode, minColors))
    else
      var kept := Retain(colors, maxColors);
      if !IsSuper(mode) then Success(seq(|kept|, i requires 0 <= i < |kept| => Uniform(kept[i])))
      else if ringOnly then Success([[Placeholder], kept])
      else Success([kept])
  }

  /** For an ordinary mode the steps give the kept palette back: the colour of
      the first LED of step `i` is kept colour `i`. */
  lemma StepsSpellPalette(colors: seq<Rgba>, minColors: nat, maxColors: nat, mode: string, ringOnly: bool)
    requires !IsSuper(mode)
    requires GenerateSteps(colors, minColors, maxColors, mode, ringOnly).Success?
    ensures var steps := GenerateSteps(colors, minColors, maxColors, mode, ringOnly).value;
      seq(|steps|, i requires 0 <= i < |steps| => steps[i][0]) == Retain(colors, maxColors)
  {
  }

  /** With any mode of the catalog there are at most eight steps, and every step
      has between one and nine LED colours; so the step index fits bits 5-7 of
      byte 4 and a frame never exceeds 5 + 3 * 9 = 32 bytes. */
  lemma CatalogStepBounds(mode: string, colors: seq<Rgba>)
    requires mode in Catalog.ColorModes
    ensures var m := Catalog.ColorModes[mode];
      var r := GenerateSteps(colors, m.minColors, m.maxColors, mode, m.ringOnly);
      r.Success? ==> |r.value| <= 8 && forall i :: 0 <= i < |r.value| ==> 1 <= |r.value[i]| <= Catalog.TotalLEDs
  {
    Catalog.ColorModesWellFormed(mode);
  }

  /** Two colours in "fading" (at least two, at most eight, not "super") give two
      uniform steps, in order. */
  lemma FadingExample(c1: Rgba, c2: Rgba)
    ensures GenerateSteps([c1, c2], 2, 8, "fading", false) == Success([Uniform(c1), Uniform(c2)])
  {
    MissingCharNotContained("fading", "super", 0);
    assert Retain([c1, c2], 8) == [c1, c2];
    var r := GenerateSteps([c1, c2], 2, 8, "fading", false);
    assert r.value[0] == Uniform(c1) && r.value[1] == Uniform(c2);
    assert r.value == [Uniform(c1), Uniform(c2)];
  }

  /** "water-cooler" takes no colours: with none given there is exactly one step,
      all LEDs at the placeholder. */
  lemma WaterCoolerExample()
    ensures GenerateSteps([], 0, 0, "water-cooler", true) == Success([Uniform(Placeholder)])
  {
    MissingCharNotContained("water-cooler", "super", 0);
    var r := GenerateSteps([], 0, 0, "water-cooler", true);
    assert r.value[0] == Uniform(Placeholder);
    assert r.value == [Uniform(Placeholder)];
  }

  /** "super-fixed" keeps up to nine colours as one frame. */
  lemma SuperFixedExample(p: seq<Rgba>)
    requires 1 <= |p| <= 9
    ensures GenerateSteps(p, 1, 9, "super-fixed", false) == Success([p])
  {
    assert "super-fixed"[0..5] == "super";
    assert OccursAt("super-fixed", "super", 0);
  }
}

=== FILE: text.dfy ===
/** The parts of Go's `strings` and `strconv` packages that the driver relies on,
    with the behaviour of the Go library: `strings.Index`, `strings.Contains`,
    `strings.Split`, `strings.Join`, `strings.Trim` with the cutset " ",
    `strconv.Atoi` and decimal formatting of unsigned values (`%d`). */
module Text {
  import opened Wrappers
  import opened Errors

  /** `sep` occurs in `s` starting at index `i`. */
  predicate OccursAt(s: string, sep: string, i: int) {
    0 <= i && i + |sep| <= |s| && s[i..i + |sep|] == sep
  }

  /** First occurrence of `sep` in `s` at or after `from`. */
  function IndexFrom(s: string, sep: string, from: nat): (r: Option<nat>)
    requires from <= |s|
    ensures r.Some? ==> from <= r.value && OccursAt(s, sep, r.value)
    ensures r.Some? ==> forall j :: from <= j < r.value ==> !OccursAt(s, sep, j)
    ensures r.None? ==> forall j :: from <= j ==> !OccursAt(s, sep, j)
    decreases |s| - from
  {
    if from + |sep| > |s| then None
    else if s[from..from + |sep|] == sep then Some(from)
    else IndexFrom(s, sep, from + 1)
  }

  /** `strings.Index`: the leftmost occurrence of `sep` in `s`, if any. */
  function IndexOf(s: string, sep: string): (r: Option<nat>)
    ensures r.Some? ==> OccursAt(s, sep, r.value)
    ensures r.Some? ==> forall j :: 0 <= j < r.value ==> !OccursAt(s, sep, j)
    ensures r.None? <==> forall j :: 0 <= j ==> !OccursAt(s, sep, j)
  {
    IndexFrom(s, sep, 0)
  }

  /** `strings.Contains`. */
  predicate Contains(s: string, sub: string) {
    IndexOf(s, sub).Some?
  }

  /** A string that lacks one of the characters of `sub` cannot contain it. */
  lemma MissingCharNotContained(s: string, sub: string, k: nat)
    requires k < |sub| && sub[k] !in s
    ensures !Contains(s, sub)
  {
  }

  /** `strings.Join`. */
  function Join(parts: seq<string>, sep: string): string
    decreases |parts|
  {
    if |parts| == 0 then ""
    else if |parts| == 1 then parts[0]
    else parts[0] + sep + Join(parts[1..], sep)
  }

  /** Joining one more part in front adds it and a separator. */
  lemma JoinCons(first: string, rest: seq<string>, sep: string)
    requires |rest| >= 1
    ensures Join([first] + rest, sep) == first + sep + Join(rest, sep)
  {
    assert ([first] + rest)[1..] == rest;
  }

  /** `strings.Split` for a non-empty separator: cut at each leftmost,
      non-overlapping occurrence of `sep`. */
  function Split(s: string, sep: string): (parts: seq<string>)
    requires |sep| > 0
    ensures |parts| >= 1
    ensures Join(parts, sep) == s
    decreases |s|
  {
    match IndexOf(s, sep)
    case None => [s]
    case Some(i) =>
      var rest := Split(s[i + |sep|..], sep);
      assert s == s[..i] + sep + s[i + |sep|..];
      [s[..i]] + rest
  }

  /** No part of a split holds the separator. */
  lemma {:induction false} SplitPartsFree(s: string, sep: string)
    requires |sep| > 0
    ensures forall k :: 0 <= k < |Split(s, sep)| ==> IndexOf(Split(s, sep)[k], sep).None?
    decreases |s|
  {
    match IndexOf(s, sep)
    case None =>
    case Some(i) =>
      var tail := s[i + |sep|..];
      var parts := Split(s, sep);
      assert parts == [s[..i]] + Split(tail, sep);
      PrefixBeforeFirst(s, sep, i);
      SplitPartsFree(tail, sep);
      forall k | 1 <= k < |parts|
        ensures IndexOf(parts[k], sep).None?
      {
        assert parts[k] == Split(tail, sep)[k - 1];
      }
  }

  /** Nothing before the first occurrence holds the separator. */
  lemma PrefixBeforeFirst(s: string, sep: string, i: nat)
    requires |sep| > 0 && IndexOf(s, sep) == Some(i)
    ensures IndexOf(s[..i], sep).None?
  {
    forall j | 0 <= j
      ensures !OccursAt(s[..i], sep, j)
    {
      if OccursAt(s[..i], sep, j) {
        assert j < i;
        assert s[j..j + |sep|] == s[..i][j..j + |sep|];
        assert OccursAt(s, sep, j);
      }
    }
  }

  /** `p` followed by `sep` first matches `sep` exactly where `sep` begins: no
      occurrence starts inside `p`, not even one that runs on into `sep`. */
  predicate EndsBeforeSep(p: string, sep: string) {
    IndexOf(p + sep, sep) == Some(|p|)
  }

  lemma PrefixMatch(p: string, sep: string, rest: string)
    requires EndsBeforeSep(p, sep)
    ensures IndexOf(p + sep + rest, sep) == Some(|p|)
  {
    var t := p + sep;
    var s := t + rest;
    forall j | 0 <= j <= |p|
      ensures OccursAt(s, sep, j) <==> OccursAt(t, sep, j)
    {
      assert s[j..j + |sep|] == t[j..j + |sep|];
    }
    var r := IndexOf(s, sep);
    assert OccursAt(s, sep, |p|);
  }

  /** A string without the first character of a separator holds no separator,
      and ends before one. */
  lemma SeparatorFree(p: string, sep: string)
    requires |sep| > 0 && sep[0] !in p
    ensures IndexOf(p, sep).None?
    ensures EndsBeforeSep(p, sep)
  {
    var t := p + sep;
    forall j | 0 <= j
      ensures !OccursAt(p, sep, j)
    {
      if j + |sep| <= |p| {
        assert p[j..j + |sep|][0] == p[j] != sep[0];
      }
    }
    forall j | 0 <= j < |p|
      ensures !OccursAt(t, sep, j)
    {
      assert t[j..j + |sep|][0] == p[j] != sep[0];
    }
    assert OccursAt(t, sep, |p|);
  }

  /** Two space-free words joined by one space hold no double space, and end
      before one. */
  lemma SpacedPair(a: string, b: string)
    requires ' ' !in a && ' ' !in b && |b| > 0
    ensures IndexOf(a + " " + b, "  ").None?
    ensures EndsBeforeSep(a + " " + b, "  ")
  {
    var p := a + " " + b;
    var t := p + "  ";
    forall j | 0 <= j < |p|
      ensures p[j] == ' ' ==> j == |a|
    {
      if j < |a| {
        assert p[j] == a[j];
      } else if j > |a| {
        assert p[j] == b[j - |a| - 1];
      }
    }
    forall j | 0 <= j
      ensures !OccursAt(p, "  ", j)
    {
      if j + 2 <= |p| {
        assert p[j..j + 2][0] == p[j] && p[j..j + 2][1] == p[j + 1];
      }
    }
    forall j | 0 <= j < |p|
      ensures !OccursAt(t, "  ", j)
    {
      assert t[j..j + 2][0] == p[j] && t[j..j + 2][1] == t[j + 1];
      if j + 1 < |p| {
        assert t[j + 1] == p[j + 1];
      }
    }
    assert OccursAt(t, "  ", |p|);
  }

  /** No part can be confused with the separator: each part but the last ends
      before a following separator, and the last holds none. */
  predicate Separable(parts: seq<string>, sep: string) {
    && |parts| >= 1
    && (forall i :: 0 <= i < |parts| - 1 ==> EndsBeforeSep(parts[i], sep))
    && IndexOf(parts[|parts| - 1], sep).None?
  }

  /** Splitting undoes joining when no part can be confused with the separator. */
  lemma {:induction false} SplitJoin(parts: seq<string>, sep: string)
    requires |sep| > 0 && Separable(parts, sep)
    ensures Split(Join(parts, sep), sep) == parts
    decreases |parts|
  {
    if |parts| > 1 {
      var rest := parts[1..];
      assert Separable(rest, sep) by {
        assert forall i :: 0 <= i < |rest| - 1 ==> rest[i] == parts[i + 1];
      }
      assert EndsBeforeSep(parts[0], sep);
      SplitJoin(rest, sep);
      JoinCons(parts[0], rest, sep);
      assert parts == [parts[0]] + rest;
      SplitCons(parts[0], sep, Join(rest, sep));
    } else {
      assert Join(parts, sep) == parts[0];
    }
  }

  /** A part that ends before the separator splits off first. */
  lemma SplitCons(p: string, sep: string, tail: string)
    requires |sep| > 0 && EndsBeforeSep(p, sep)
    ensures Split(p + sep + tail, sep) == [p] + Split(tail, sep)
  {
    PrefixMatch(p, sep, tail);
    var s := p + sep + tail;
    assert s[|p| + |sep|..] == tail;
    assert s[..|p|] == p;
  }

  /** A string of spaces only. */
  predicate AllSpaces(s: string) {
    forall i :: 0 <= i < |s| ==> s[i] == ' '
  }

  /** The number of spaces `s` starts with. */
  function LeadingSpaceCount(s: string): (n: nat)
    ensures n <= |s| && AllSpaces(s[..n])
    ensures n < |s| ==> s[n] != ' '
    decreases |s|
  {
    if |s| > 0 && s[0] == ' ' then
      var m := LeadingSpaceCount(s[1..]);
      assert s[..m + 1] == [s[0]] + s[1..][..m];
      m + 1
    else
      0
  }

  /** The number of spaces `s` ends with. */
  function TrailingSpaceCount(s: string): (n: nat)
    ensures n <= |s| && AllSpaces(s[|s| - n..])
    ensures n < |s| ==> s[|s| - n - 1] != ' '
    decreases |s|
  {
    if |s| > 0 && s[|s| - 1] == ' ' then
      var init := s[..|s| - 1];
      var m := TrailingSpaceCount(init);
      assert s[|s| - (m + 1)..] == init[|init| - m..] + [s[|s| - 1]];
      m + 1
    else
      0
  }

  /** `strings.Trim(s, " ")`: the leading spaces are cut first, then the
      trailing spaces of what is left. The result is the piece of `s` between
      its leading and trailing spaces, and it neither starts nor ends with a
      space. */
  function Trim(s: string): (r: string)
    ensures |r| > 0 ==> r[0] != ' ' && r[|r| - 1] != ' '
    ensures exists a :: 0 <= a <= |s| - |r| && r == s[a..a + |r|] && AllSpaces(s[..a]) && AllSpaces(s[a + |r|..])
  {
    var a := LeadingSpaceCount(s);
    var rest := s[a..];
    var b := TrailingSpaceCount(rest);
    assert s[|s| - b..] == rest[|rest| - b..];
    assert AllSpaces(s[..a]);
    s[a..|s| - b]
  }

  /** Spaces after a string that does not end in one are all it ends with. */
  lemma {:induction false} TrailingPad(s: string, pad: string)
    requires AllSpaces(pad)
    requires |s| > 0 && s[|s| - 1] != ' '
    ensures TrailingSpaceCount(s + pad) == |pad|
    decreases |pad|
  {
    if |pad| > 0 {
      var p' := pad[..|pad| - 1];
      assert (s + pad)[..|s + pad| - 1] == s + p';
      TrailingPad(s, p');
    } else {
      assert s + pad == s;
    }
  }

  /** A string of spaces, and `s` followed by such a string, trims to `s` when `s`
      neither starts nor ends with a space. */
  lemma TrimPadded(s: string, pad: string)
    requires AllSpaces(pad)
    requires |s| > 0 ==> s[0] != ' ' && s[|s| - 1] != ' '
    ensures Trim(s + pad) == s
  {
    if |s| > 0 {
      assert LeadingSpaceCount(s + pad) == 0;
      assert (s + pad)[0..] == s + pad;
      TrailingPad(s, pad);
      assert (s + pad)[0..|s|] == s;
    } else {
      assert s + pad == pad;
      assert LeadingSpaceCount(pad) == |pad|;
    }
  }

  // ---------------------------------------------------------------------------
  // Decimal integers

  predicate IsDigit(c: char) {
    '0' <= c <= '9'
  }

  predicate AllDigits(s: string) {
    forall i :: 0 <= i < |s| ==> IsDigit(s[i])
  }

  function DigitValue(c: char): nat
    requires IsDigit(c)
  {
    (c as int) - ('0' as int)
  }

  function DigitChar(d: nat): (c: char)
    requires d < 10
    ensures IsDigit(c) && DigitValue(c) == d
  {
    (('0' as int) + d) as char
  }

  /** Value of a string of decimal digits, most significant first. */
  function DigitsValue(s: string): nat
    requires AllDigits(s)
    decreases |s|
  {
    if |s| == 0 then 0 else 10 * DigitsValue(s[..|s| - 1]) + DigitValue(s[|s| - 1])
  }

  const MinInt64: int := -0x8000_0000_0000_0000
  const MaxInt64: int := 0x7fff_ffff_ffff_ffff

  /** `strconv.Atoi` on a 64-bit platform: an optional sign, then one or more ASCII
      digits, with a value that fits an `int`. Go reports syntax and range errors
      separately; both abort the driver the same way, so one failure stands for
      both. */
  function Atoi(s: string): (r: Result<int, Error>)
    ensures r.Success? ==> |s| > 0 && ' ' !in s
    ensures r.Success? ==> MinInt64 <= r.value <= MaxInt64
    ensures r.Failure? ==> r.error == InvalidInteger(s)
  {
    var signed := |s| > 0 && (s[0] == '+' || s[0] == '-');
    var digits := if signed then s[1..] else s;
    if |digits| == 0 || !AllDigits(digits) then Failure(InvalidInteger(s))
    else
      var v: int := if signed && s[0] == '-' then 0 - DigitsValue(digits) else DigitsValue(digits);
      if v < MinInt64 || v > MaxInt64 then Failure(InvalidInteger(s))
      else
        Success(v)
  }

  /** Decimal form of a natural number, as `fmt`'s `%d` prints an unsigned value. */
  function Itoa(n: nat): (s: string)
    ensures |s| >= 1 && AllDigits(s)
    ensures |s| > 1 ==> s[0] != '0'
    decreases n
  {
    if n < 10 then [DigitChar(n)] else Itoa(n / 10) + [DigitChar(n % 10)]
  }

  lemma {:induction false} ItoaValue(n: nat)
    ensures DigitsValue(Itoa(n)) == n
    decreases n
  {
    if n >= 10 {
      ItoaValue(n / 10);
      var s := Itoa(n);
      assert s[..|s| - 1] == Itoa(n / 10);
    }
  }

  /** Unsigned decimal digits within range read as their value. */
  lemma AtoiDigits(s: string)
    requires |s| > 0 && AllDigits(s) && DigitsValue(s) <= MaxInt64
    ensures Atoi(s) == Success(DigitsValue(s))
  {
    assert IsDigit(s[0]);
  }

  /** Two digits are worth ten times the first plus the second. */
  lemma DigitsValueTwo(s: string)
    requires |s| == 2 && AllDigits(s)
    ensures DigitsValue(s) == 10 * DigitValue(s[0]) + DigitValue(s[1])
  {
    var head := s[..1];
    assert head[..0] == [] && head[0] == s[0];
    assert DigitsValue(head) == DigitValue(s[0]);
    assert s[..|s| - 1] == head;
  }

  /** Reading back what `%d` wrote gives the number. */
  lemma AtoiItoa(n: nat)
    requires n <= MaxInt64
    ensures Atoi(Itoa(n)) == Success(n)
  {
    ItoaValue(n);
  }
}

=== FILE: vectors.dfy ===
/** The parsing and normalization examples of driver/util_test.go, read from
    their profile text: each text is the eight tokens of the `speed` command
    joined by its loop, and the critical temperature is 60. */
module Vectors {
  import opened Wrappers
  import opened Text
  import opened Profile
  import opened SpeedCommand

  /** Eight words joined by the `speed` loop: one space inside each pair, two
      between pairs. */
  lemma JoinEight(tokens: seq<string>)
    requires |tokens| == 8 && Words(tokens)
    ensures JoinProfile(tokens)
         == tokens[0] + " " + tokens[1] + "  " + tokens[2] + " " + tokens[3] + "  "
          + tokens[4] + " " + tokens[5] + "  " + tokens[6] + " " + tokens[7]
  {
    JoinProfileSegments(tokens);
    SegmentsAt(tokens);
    var segs := Segments(tokens);
    assert |segs| == 4;
    JoinFour(segs, "  ");
    assert segs[0] == tokens[0] + " " + tokens[1] && segs[1] == tokens[2] + " " + tokens[3];
    assert segs[2] == tokens[4] + " " + tokens[5] && segs[3] == tokens[6] + " " + tokens[7];
    Regroup(tokens[0], tokens[1], tokens[2], tokens[3], tokens[4], tokens[5], tokens[6], tokens[7]);
  }

  /** The pairs of the joined text read without their grouping. */
  lemma Regroup(a: string, b: string, c: string, d: string, e: string, f: string, g: string, h: string)
    ensures (a + " " + b) + "  " + (c + " " + d) + "  " + (e + " " + f) + "  " + (g + " " + h)
         == a + " " + b + "  " + c + " " + d + "  " + e + " " + f + "  " + g + " " + h
  {
  }

  /** Four parts joined with a separator between each two. */
  lemma JoinFour(parts: seq<string>, sep: string)
    requires |parts| == 4
    ensures Join(parts, sep) == parts[0] + sep + parts[1] + sep + parts[2] + sep + parts[3]
  {
    JoinCons(parts[0], parts[1..], sep);
    JoinCons(parts[1], parts[2..], sep);
    JoinCons(parts[2], parts[3..], sep);
    assert parts == [parts[0]] + parts[1..];
    assert parts[1..] == [parts[1]] + parts[2..];
    assert parts[2..] == [parts[2]] + parts[3..];
    assert Join(parts[3..], sep) == parts[3];
  }

  /** Tokens of two digits, or "100", read as their values. */
  predicate Reads(token: string, value: int) {
    || (|token| == 2 && IsDigit(token[0]) && IsDigit(token[1])
        && value == 10 * DigitValue(token[0]) + DigitValue(token[1]))
    || (token == "100" && value == 100)
  }

  /** Eight tokens that read as `values` parse, once joined, to the values in
      pairs. */
  lemma ParseEight(tokens: seq<string>, values: seq<int>)
    requires |tokens| == 8 && |values| == 8
    requires forall i :: 0 <= i < 8 ==> Reads(tokens[i], values[i])
    ensures ParseProfile(JoinProfile(tokens)) == Success(PairUp(values))
  {
    ReadAll(tokens, values);
    ParseReadings(tokens, values);
  }

  lemma ReadAll(tokens: seq<string>, values: seq<int>)
    requires |tokens| == |values|
    requires forall i :: 0 <= i < |tokens| ==> Reads(tokens[i], values[i])
    ensures forall i :: 0 <= i < |tokens| ==> Atoi(tokens[i]) == Success(values[i])
  {
    forall i | 0 <= i < |tokens|
      ensures Atoi(tokens[i]) == Success(values[i])
    {
      ReadsAtoi(tokens[i], values[i]);
    }
  }

  lemma ReadsAtoi(token: string, value: int)
    requires Reads(token, value)
    ensures Atoi(token) == Success(value)
  {
    if |token| == 2 {
      AtoiTwoDigits(token);
    } else {
      AtoiHundred(token);
    }
  }

  /** Eight words joined as the loop joins them parse to their values in pairs. */
  lemma ParseJoinedText(s: string, tokens: seq<string>, values: seq<int>)
    requires |tokens| == 8 && |values| == 8 && Words(tokens)
    requires forall i :: 0 <= i < 8 ==> Reads(tokens[i], values[i])
    requires s == tokens[0] + " " + tokens[1] + "  " + tokens[2] + " " + tokens[3] + "  "
                + tokens[4] + " " + tokens[5] + "  " + tokens[6] + " " + tokens[7]
    ensures ParseProfile(s) == Success(PairUp(values))
  {
    JoinEight(tokens);
    ParseEight(tokens, values);
  }

  lemma PairUpEight(values: seq<int>)
    requires |values| == 8
    ensures PairUp(values)
         == [Point(values[0], values[1]), Point(values[2], values[3]),
             Point(values[4], values[5]), Point(values[6], values[7])]
  {
    var pairs := PairUp(values);
    assert |pairs| == 4;
  }

  // The example lemmas take the text as a parameter pinned by `requires`
  // rather than the literal itself: the solver then reasons about `s` and only
  // unfolds the literal where a step needs it, which keeps each proof small.

  /** `parseProfile("20 25  35 25  50 55  60 100")` is the four points. */
  lemma ParseProfileTest(s: string)
    requires s == "20 25  35 25  50 55  60 100"
    ensures ParseProfile(s) == Success([Point(20, 25), Point(35, 25), Point(50, 55), Point(60, 100)])
  {
    var tokens := ["20", "25", "35", "25", "50", "55", "60", "100"];
    var values := [20, 25, 35, 25, 50, 55, 60, 100];
    assert Words(tokens);
    TestText(tokens, s);
    ParseJoinedText(s, tokens, values);
    PairUpEight(values);
  }

  lemma TestText(tokens: seq<string>, s: string)
    requires tokens == ["20", "25", "35", "25", "50", "55", "60", "100"]
    requires s == "20 25  35 25  50 55  60 100"
    ensures s == tokens[0] + " " + tokens[1] + "  " + tokens[2] + " " + tokens[3] + "  "
               + tokens[4] + " " + tokens[5] + "  " + tokens[6] + " " + tokens[7]
  {
  }

  /** The first normalization example: the hottest point, (50, 100), already
      has full duty below 60 and is replaced by (60, 100). */
  lemma NormalizeTestFullDuty(s: string)
    requires s == "35 25  20 25  50 55  50 100"
    ensures ParseProfile(s).Success?
    ensures Normalize(ParseProfile(s).value, 60) == [Point(20, 25), Point(35, 25), Point(50, 55), Point(60, 100)]
  {
    var tokens := ["35", "25", "20", "25", "50", "55", "50", "100"];
    var values := [35, 25, 20, 25, 50, 55, 50, 100];
    assert Words(tokens);
    FullDutyText(tokens, s);
    ParseJoinedText(s, tokens, values);
    PairUpEight(values);
    NormalizeReplacesFullDuty(Point(35, 25), Point(20, 25), Point(50, 55), Point(50, 100), 60);
  }

  lemma FullDutyText(tokens: seq<string>, s: string)
    requires tokens == ["35", "25", "20", "25", "50", "55", "50", "100"]
    requires s == "35 25  20 25  50 55  50 100"
    ensures s == tokens[0] + " " + tokens[1] + "  " + tokens[2] + " " + tokens[3] + "  "
               + tokens[4] + " " + tokens[5] + "  " + tokens[6] + " " + tokens[7]
  {
  }

  /** The second example: the hottest point sits at 60 with duty 90 and is
      raised to (60, 100). */
  lemma NormalizeTestCritical(s: string)
    requires s == "35 25  20 25  50 55  60 90"
    ensures ParseProfile(s).Success?
    ensures Normalize(ParseProfile(s).value, 60) == [Point(20, 25), Point(35, 25), Point(50, 55), Point(60, 100)]
  {
    var tokens := ["35", "25", "20", "25", "50", "55", "60", "90"];
    var values := [35, 25, 20, 25, 50, 55, 60, 90];
    assert Words(tokens);
    CriticalText(tokens, s);
    ParseJoinedText(s, tokens, values);
    PairUpEight(values);
    NormalizeRaisesCritical(Point(35, 25), Point(20, 25), Point(50, 55), Point(60, 90), 60);
  }

  lemma CriticalText(tokens: seq<string>, s: string)
    requires tokens == ["35", "25", "20", "25", "50", "55", "60", "90"]
    requires s == "35 25  20 25  50 55  60 90"
    ensures s == tokens[0] + " " + tokens[1] + "  " + tokens[2] + " " + tokens[3] + "  "
               + tokens[4] + " " + tokens[5] + "  " + tokens[6] + " " + tokens[7]
  {
  }

  /** The third example: the hottest point, (50, 90), is kept and (60, 100)
      follows it. */
  lemma NormalizeTestKeepsLast(s: string)
    requires s == "35 25  20 25  50 55  50 90"
    ensures ParseProfile(s).Success?
    ensures Normalize(ParseProfile(s).value, 60)
         == [Point(20, 25), Point(35, 25), Point(50, 55), Point(50, 90), Point(60, 100)]
  {
    var tokens := ["35", "25", "20", "25", "50", "55", "50", "90"];
    var values := [35, 25, 20, 25, 50, 55, 50, 90];
    assert Words(tokens);
    KeepsLastText(tokens, s);
    ParseJoinedText(s, tokens, values);
    PairUpEight(values);
    NormalizeKeepsLast(Point(35, 25), Point(20, 25), Point(50, 55), Point(50, 90), 60);
  }

  lemma KeepsLastText(tokens: seq<string>, s: string)
    requires tokens == ["35", "25", "20", "25", "50", "55", "50", "90"]
    requires s == "35 25  20 25  50 55  50 90"
    ensures s == tokens[0] + " " + tokens[1] + "  " + tokens[2] + " " + tokens[3] + "  "
               + tokens[4] + " " + tokens[5] + "  " + tokens[6] + " " + tokens[7]
  {
  }
}

=== FILE: wrappers.dfy ===
/** Failure-carrying wrappers used in place of Go's `(value, error)` pairs and of
    `log.Fatal`: every `log.Fatal` of the original becomes a `Result` whose
    `Failure` names the reason. A panic becomes either such a `Failure` or a
    precondition of the operation that would panic. */
module Wrappers {

  datatype Option<+T> = None | Some(value: T)

  datatype Result<+T, +E> = Success(value: T) | Failure(error: E) {
    predicate IsFailure() {
      Failure?
    }

    function PropagateFailure<U>(): Result<U, E>
      requires Failure?
    {
      Failure(error)
    }

    function Extract(): T
      requires Success?
    {
      value
    }
  }
}
